=== FILE: README.md ===
# Classical state-space search, modelled in Dafny

The repository has three standalone Python scripts that demonstrate
search over two toy domains:

- `puzzle.py` solves the 8-puzzle with best-first search (`a_estrela`) and
  two heuristics.
- `puzzle_dfs_antigo.py` solves the 8-puzzle with depth-first search (`dfs`).
- `aspirador.py` plans in the two-room vacuum world with breadth-first
  search (`bfs`).

This project models the search core of those scripts and proves what they
promise:

- how a blank slide works;
- what the heuristics count;
- that every path a search returns is a real path to the goal;
- that `None` means the goal is unreachable;
- how the visited set and the statistics behave;
- for BFS, that the plan it returns is a shortest one.

Modules:

| module | file | what it models |
|---|---|---|
| `Common` | common.dfy | `Option` (the scripts' `None`-or-value returns), `seq[-1]`, distinct lists, set sizes |
| `Puzzle` | puzzle.dfy | boards, `encontrar_zero`, `movimentos`, `mover`, `gerar_vizinhos`, `estados_iguais`, `serializar`; paths of slides |
| `Heuristics` | heuristics.dfy | `pecas_corretas`, `pecas_fora_do_lugar`, `distancia_manhattan`, and the `heuristica` argument of `a_estrela` |
| `SearchSpace` | searchspace.dfy | what both 8-puzzle searches share: the boards reached from the start, the frontier condition, and the finite space of keys |
| `BestFirst` | bestfirst.dfy | `a_estrela`, with its heap and its `memoria` statistics |
| `DepthFirst` | depthfirst.dfy | `dfs` and its stack of (board, path) frames |
| `VacuumWorld` | vacuum.dfy | the `acoes` table (ESQ, DIR, ASP) and runs of actions |
| `VacuumSearch` | vacuumsearch.dfy | `bfs`, and the script's own run from (L, S, S) to (L, C, C) |

Modelling choices:

- **Boards.** A board is `seq<seq<int>>`, as in the scripts. `IsGrid` says
  it is 3 × 3. `Valid` says it holds each digit 0..8 exactly once. A search
  only needs a 3 × 3 start board with a blank, because that is all `mover`
  needs.
- **Termination.** Each search loop decreases the pair
  (keys of the finite space not yet visited, length of the agenda).
  - For the 8-puzzle, the finite space is every 3 × 3 grid filled from the
    start board's own digits. Slides only rearrange digits, so no board
    outside it is ever reached.
  - For the vacuum world, the finite space is every state whose fields come
    from the start state or from what the actions write.
- **The heap.** The heap of `a_estrela` is a sequence. A pop removes any one
  entry with the least (priority, cost).
- **Expansion records.** Each search returns a ghost list of the keys (or
  states) it expanded, in order. This is how "no board is expanded twice"
  and "expansions are bounded by the reachable boards" are stated.
- **`heuristica`.** It becomes the datatype `Heuristic`, with one case for
  each heuristic `puzzle.py` defines that fits `a_estrela`'s argument:
  misplaced tiles and Manhattan distance.
  - `distancia_manhattan` looks every non-blank digit up in a dictionary
    built from the goal, and raises `KeyError` when a digit is missing.
  - So `AStar` with `ManhattanSum` requires the start's non-zero digits to
    appear in the goal. Slides keep the digits, so every board the search
    meets satisfies this too.
- **Vacuum states.** A vacuum state is a triple of characters, not of
  enumerations. This keeps the `acoes` table exactly as written:
  - ESQ and DIR test for the other room's letter;
  - ASP treats every position other than 'L' as 'R'.

  On the eight states of the world, every action stays in the world.
- **The vacuum scenario.** From (L, S, S) to (L, C, C), the goal puts the
  agent back in L after both rooms are cleaned. So no plan of two actions
  exists. `FourActionsNeeded` proves that four actions (five states) are
  needed and that they suffice. `CleanBothRooms` proves that `bfs` returns
  a plan of exactly that length.

## Model

| member | source | states |
|---|---|---|
| Puzzle.FindBlank | puzzle.py:28-32 | the result is the first cell, in row-major order, holding 0; it is `None` exactly when no cell holds 0 |
| Puzzle.HasBlankFound | puzzle.py:28-32 | a 3 × 3 board has a 0 exactly when `encontrar_zero` finds one |
| Puzzle.Blank | puzzle.py:28-32 | the cell `mover` starts from holds 0 and no earlier cell does |
| Puzzle.ValidBlank | puzzle.py:28-32 | on a valid board the blank exists and is the only cell holding 0 |
| Puzzle.Target | puzzle.py:21-26 | each offset of `movimentos` leads to a cell orthogonally next to the blank: ↑ one row up, ↓ one row down, ← one column left, → one column right |
| Puzzle.TargetOpposite | puzzle.py:21-26 | the offsets of ↑ and ↓, and of ← and →, cancel; different directions lead to different cells |
| Puzzle.Swap | puzzle.py:40-41 | the copy exchanges the two cells and keeps every other cell |
| Puzzle.Move | puzzle.py:34-43 | `None` exactly when the target cell is off the grid; otherwise the board with the blank and the target exchanged, every other cell kept, and the blank now at the target |
| Puzzle.MoveKeepsValid | puzzle.py:34-43 | a slide on a valid board gives a valid board whose blank is the target cell |
| Puzzle.MoveReversible | puzzle.py:21-26 | the opposite slide (↑/↓, ←/→) undoes a slide |
| Puzzle.MovesDistinct | puzzle.py:34-43 | two different directions never give the same board |
| Puzzle.MoveList | puzzle.py:47-50 | one `mover` call as a list of its non-`None` result |
| Puzzle.MovesToSome | puzzle.py:45-51 | being one of the four `mover` results is being the result of some direction |
| Puzzle.Neighbours | puzzle.py:45-51 | as a set, the neighbours are exactly the non-`None` `mover` results; each has a blank, and there are 2 to 4 of them |
| Puzzle.NeighbourAt | puzzle.py:45-51 | a successful slide in the i-th direction of `movimentos` sits in the list right after the successful slides of the directions before it |
| Puzzle.NeighboursOrder | puzzle.py:45-51 | the list holds one board per successful direction and nothing else, in the order ↑, ↓, ←, →: its length is the number of successful directions, and the slide of the i-th direction sits at the index counting the successful directions before it; so the ↑ result comes first and the → result last |
| Puzzle.PathExtend | puzzle.py:108-110 | a path of slides extended by a neighbour of its last board is a path of slides |
| Puzzle.CellsAgree | puzzle.py:53-54 | two 3 × 3 boards agree on all nine cells exactly when they are equal |
| Puzzle.SameBoard | puzzle.py:53-54 | `estados_iguais` holds exactly when the two 3 × 3 boards are equal |
| Puzzle.Serialize | puzzle.py:56-57 | the key records every cell: entry j of tuple i is the board's cell (i, j) |
| Puzzle.SerializeFaithful | puzzle.py:53-57 | `estados_iguais` holds exactly when the keys are equal, exactly when the boards are equal |
| Puzzle.SerializeInjective | puzzle.py:56-57 | different boards have different keys |
| Puzzle.KeyInUniverse | puzzle.py:56-57 | a board drawn from a set of digits has its key in the finite set of keys over those digits |
| Puzzle.MoveDrawnFrom | puzzle.py:40-41 | a slide only rearranges digits |
| Puzzle.PathDrawnFrom | puzzle.py:40-41 | every board along a path of slides is drawn from the first board's digits |
| Puzzle.PathStaysInClosed | puzzle.py:45-51 | a path starting inside a set of keys closed under slides stays inside it |
| Heuristics.CorrectTiles | puzzle.py:59-63 | `pecas_corretas` plus `pecas_fora_do_lugar` is the number of non-blank cells |
| Heuristics.MisplacedTiles | puzzle.py:65-69 | `pecas_fora_do_lugar` is 0 exactly when every non-blank tile matches the goal's cell |
| Heuristics.CountsSplitOver | puzzle.py:59-69 | over any list of cells, correct plus misplaced tiles is the number of non-blank cells |
| Heuristics.CorrectPlusMisplaced | puzzle.py:59-69 | `pecas_corretas + pecas_fora_do_lugar` is the number of non-zero cells, 8 on a valid board |
| Heuristics.MisplacedZeroIff | puzzle.py:65-69 | on valid boards `pecas_fora_do_lugar` is 0 exactly when the board is the goal |
| Heuristics.GoalPositions | puzzle.py:72 | the dictionary maps each goal digit to a cell holding it |
| Heuristics.GoalPositionsOfDistinct | puzzle.py:72 | when the goal's digits are distinct, the dictionary maps each digit to its own cell |
| Heuristics.ValidCovers | puzzle.py:76-78 | on valid boards the dictionary lookup never fails |
| Heuristics.DigitsCover | puzzle.py:76-78 | a board drawn from digits the goal holds (the blank aside) never makes the lookup fail |
| Heuristics.ManhattanDistance | puzzle.py:71-80 | `pecas_fora_do_lugar ≤ distancia_manhattan`, so the distance is 0 only when every tile is in place |
| Heuristics.ManhattanZeroIff | puzzle.py:71-80 | on valid boards `distancia_manhattan` is 0 exactly when the board is the goal |
| Heuristics.ManhattanStep | puzzle.py:71-80 | one slide changes the Manhattan distance to a valid goal by exactly one |
| Heuristics.StepDirection | puzzle.py:45-51 | a neighbour of a valid board comes from some direction and is valid |
| Heuristics.ManhattanAdmissible | puzzle.py:71-80 | along any path of slides to the goal, misplaced ≤ Manhattan ≤ the number of slides |
| Heuristics.Estimate | puzzle.py:112 | the heuristic `a_estrela` is given is at least `pecas_fora_do_lugar`, so it is 0 only when every tile is in place |
| Heuristics.EstimateZeroIff | puzzle.py:59-80 | either heuristic is 0 on valid boards exactly when the board is the goal |
| Heuristics.EstimateAdmissible | puzzle.py:59-80 | either heuristic never overestimates the number of slides left |
| SearchSpace.ReachedInUniverse | puzzle.py:101-102 | every key reached from the start lies in the finite space over the start's digits |
| SearchSpace.AllInUniverse | puzzle.py:101-102 | a set of reached keys lies in that finite space and among the reachable keys |
| SearchSpace.PathReached | puzzle.py:106 | the last board of a path of slides from the start is reached |
| SearchSpace.FrontierGrows | puzzle.py:101-113 | marking a board visited once all its neighbours are visited or pending keeps the frontier condition |
| SearchSpace.Exhausted | puzzle.py:93-115 | an empty agenda, with the start visited and the goal not, means every board a path of slides from the start reaches is visited, so none of them is the goal |
| SearchSpace.ExpansionBound | puzzle_dfs_antigo.py:58-61 | expanding each reached key at most once means expanding no more boards than are reachable |
| SearchSpace.FoundAlong | puzzle.py:101-106 | a popped board whose path's boards were all visited was reached through expanded boards only |
| BestFirst.MinimalExists | puzzle.py:94 | every non-empty heap has an entry no later than all others |
| BestFirst.PopMin | puzzle.py:94 | `heappop` removes exactly one occurrence of an entry whose (priority, cost) is least, and keeps the rest |
| BestFirst.HeapKeysConcat | puzzle.py:113 | the keys of two heaps joined are the keys of each |
| BestFirst.Pushes | puzzle.py:108-113 | one entry per neighbour whose key is not visited, and as many entries as there are such neighbours, each with cost + 1, priority cost + 1 + heuristic, and the path extended by the current board |
| BestFirst.Children | puzzle.py:108-113 | the entries pushed for a board: one for each neighbour whose key is not visited and as many as there are such neighbours, each with cost + 1 and the path extended by the board |
| BestFirst.PushesCover | puzzle.py:108-113 | after the pushes, every neighbour is visited or pending |
| BestFirst.ChildWellFormed | puzzle.py:110-113 | a pushed entry's path is a path of slides from the start whose length is its cost |
| BestFirst.EntryReached | puzzle.py:91 | the board of every heap entry is reached from the start and drawn from its digits |
| BestFirst.StalePop | puzzle.py:98-99 | skipping an entry whose key is visited keeps the search invariant |
| BestFirst.ExpandKeepsSearch | puzzle.py:101-113 | expanding a fresh non-goal entry keeps the search invariant |
| BestFirst.FreshPopShrinks | puzzle.py:101 | a fresh pop leaves fewer unvisited keys in the finite space |
| BestFirst.GoalPop | puzzle.py:105-106 | a fresh pop of the goal carries a path of slides from the start to the goal |
| BestFirst.GoalReturned | puzzle.py:101-106 | a fresh pop of the goal returns a path through expanded boards only, and leaves `estados_unicos` equal to the expanded keys plus the goal's |
| BestFirst.PopOutcome | puzzle.py:94-113 | what each of the three pop cases (stale, goal, fresh) leaves behind |
| BestFirst.StatsFresh | puzzle.py:96-103 | counting a fresh pop keeps `estados_unicos` equal to the visited set and no larger than the pop count |
| BestFirst.PathsAfterPop | puzzle.py:94 | a pop keeps every remaining entry's path visited, and the popped entry's own |
| BestFirst.PathsAfterExpand | puzzle.py:101-113 | entries pushed with the popped path extended by its now visited board keep every path in the heap visited |
| BestFirst.FinishedBounds | puzzle.py:96-103 | a search's `estados_unicos` lie in the finite space and its expansions, each one of them, are bounded by the reachable boards |
| BestFirst.StartSearch | puzzle.py:89-91 | the heap holding only the start entry, with nothing visited, meets the search invariant |
| BestFirst.HeapRanEmpty | puzzle.py:93-115 | when the heap runs empty, `estados_unicos` is exactly the expanded keys and every board reachable from the start was expanded, so none of them is the goal |
| BestFirst.Iterate | puzzle.py:93-113 | one loop turn: a found path leads from the start to the goal through expanded boards only, with `max_profundidade ≥ len − 1`, and `estados_unicos` is then the expanded keys plus the goal's; otherwise the invariant holds, every board on a waiting entry's path is visited, and the measure drops |
| BestFirst.AStar | puzzle.py:82-115 | a returned path leads from `inicio` to `objetivo` by slides, and every board on it but the last was expanded; `None` only when no path reaches the goal; `len(estados_unicos) ≤ visitados`; no board expanded twice; expansions bounded by the reachable boards; `estados_unicos` is the expanded keys, plus the goal's when found; on `None`, every board reachable from `inicio` was expanded |
| DepthFirst.Frames | puzzle_dfs_antigo.py:66-69 | one frame per neighbour, in the order of the neighbours |
| DepthFirst.Expand | puzzle_dfs_antigo.py:66-69 | the stack after an expansion is the rest, unchanged, followed by one frame per neighbour in the order of the neighbours, each with the path extended by the popped board |
| DepthFirst.RightExploredFirst | puzzle_dfs_antigo.py:55-69 | the → successor ends on top of the stack, so it is popped next; the ↑ successor is the deepest new frame |
| DepthFirst.FrameReached | puzzle_dfs_antigo.py:69 | the board of every frame is reached from the start |
| DepthFirst.StackKeysAfterPop | puzzle_dfs_antigo.py:55 | a pop removes at most the top frame's key from the stack's keys |
| DepthFirst.StaleTurn | puzzle_dfs_antigo.py:58-59 | skipping a visited frame keeps the invariant |
| DepthFirst.ExpandOk | puzzle_dfs_antigo.py:66-69 | pushed frames carry paths of slides from the start |
| DepthFirst.ExpandFrontier | puzzle_dfs_antigo.py:61-69 | expanding the top frame keeps the frontier condition |
| DepthFirst.FreshTurn | puzzle_dfs_antigo.py:61-69 | expanding a fresh non-goal frame keeps the invariant |
| DepthFirst.FreshShrinks | puzzle_dfs_antigo.py:61 | a fresh pop visits a reached key and leaves fewer unvisited keys |
| DepthFirst.TurnOutcome | puzzle_dfs_antigo.py:55-69 | what each of the three pop cases leaves behind |
| DepthFirst.ExpansionsFresh | puzzle_dfs_antigo.py:61 | recording an expansion keeps each key listed once, never the goal, only reached keys |
| DepthFirst.PathsAfterPop | puzzle_dfs_antigo.py:55 | a pop keeps every remaining frame's path visited, and the popped frame's own |
| DepthFirst.PathsAfterExpand | puzzle_dfs_antigo.py:61-69 | frames pushed with the popped path extended by its now visited board keep every path on the stack visited |
| DepthFirst.StackRanEmpty | puzzle_dfs_antigo.py:53-71 | when the stack runs empty, every board reachable from the start was expanded, none of them the goal, and no more boards were expanded than are reachable |
| DepthFirst.Turn | puzzle_dfs_antigo.py:55-69 | one loop turn pops the top frame: when its key is visited, the stack is the rest and nothing else changes; when it is the goal, its path with the board is returned; otherwise its key is visited and recorded and the stack is `Expand` of the rest. `visitados` only grows; a found path leads to the goal through expanded boards only; otherwise the invariant holds, every board on a frame's path is visited, the measure drops, and after an expansion the → successor is on top |
| DepthFirst.Dfs | puzzle_dfs_antigo.py:50-71 | a returned path leads from `inicio` to `objetivo` by slides, and every board on it but the last was expanded; `None` only when no path reaches the goal; each board expanded at most once, never the goal; expansions bounded by the reachable boards; on `None`, every board reachable from `inicio` was expanded |
| VacuumWorld.Apply | aspirador.py:22-26 | on the eight states every action stays in the world; ESQ and DIR only move the agent, to L and to R; ASP keeps the agent and cleans its room, only that one |
| VacuumWorld.WorldIsEight | aspirador.py:18-19 | the world has exactly eight states |
| VacuumWorld.Idempotent | aspirador.py:23-25 | doing an action twice is doing it once, in every state |
| VacuumWorld.NextIsAction | aspirador.py:42-43 | a step of a run is the result of some action |
| VacuumWorld.RunExtend | aspirador.py:44 | a run extended by an action's result is a run |
| VacuumWorld.RunPrefix | aspirador.py:44 | dropping the last state of a run leaves a run |
| VacuumWorld.ApplyAround | aspirador.py:22-26 | actions stay in the finite space around a start state |
| VacuumWorld.RunAround | aspirador.py:22-26 | every run stays in the finite space around its first state |
| VacuumWorld.AroundWorld | aspirador.py:22-26 | from a state of the world, that space is inside the eight states |
| VacuumSearch.Extensions | aspirador.py:42-45 | the three new paths extend the popped path by ESQ's, DIR's and ASP's result, in that order |
| VacuumSearch.Cut | aspirador.py:33-45 | every run from the start passes a state with a queued path no longer than the run up to there, or ends in a state expanded no later |
| VacuumSearch.NoShorterRun | aspirador.py:33-45 | while the goal is not visited, the queue is not empty and its head is no longer than any run to the goal |
| VacuumSearch.CoveredAfterPop | aspirador.py:34 | popping the head keeps every covered state covered |
| VacuumSearch.StalePop | aspirador.py:40 | dropping a path that ends in a visited state keeps the invariant |
| VacuumSearch.FreshLayered | aspirador.py:34-45 | the queue stays ordered by non-decreasing length, with lengths at most one apart |
| VacuumSearch.ExtensionsCover | aspirador.py:42-45 | the successors of the expanded state are queued one state deeper |
| VacuumSearch.FreshPop | aspirador.py:40-45 | expanding a fresh non-goal state keeps the invariant |
| VacuumSearch.WalkedAfterPop | aspirador.py:34 | a pop keeps every remaining queued path's earlier states visited, and the popped path's own |
| VacuumSearch.WalkedAfterExpand | aspirador.py:40-45 | the extensions of a popped path, once its last state is visited, have all their earlier states visited |
| VacuumSearch.Dequeue | aspirador.py:33-45 | one loop turn: a returned path is a shortest run to the goal whose states but the last were all expanded; otherwise the invariant holds, every state a queued path passed through is visited, and the measure drops |
| VacuumSearch.QueueRanEmpty | aspirador.py:33-47 | when the queue runs empty, every state a run from the start reaches was expanded, and none of them is the goal |
| VacuumSearch.Bfs | aspirador.py:29-47 | a returned path is a run from `inicio` to `objetivo` that no run is shorter than, and every state on it but the last was expanded; `None` only when no run reaches the goal, and then every state a run reaches was expanded; each state expanded at most once, never the goal; at most 8 expansions from a state of the world |
| VacuumSearch.ExpansionCount | aspirador.py:40-41 | from a state of the world, no more than 8 states are expanded |
| VacuumSearch.ToGoStep | aspirador.py:22-26 | one action brings the agent at most one action closer to (L, C, C) |
| VacuumSearch.ToGoAlongRun | aspirador.py:22-26 | a run inside the world gets at most one action closer per action |
| VacuumSearch.FourActionsNeeded | aspirador.py:18-19 | from (L, S, S), a run to (L, C, C) takes at least four actions, and one of four exists |
| VacuumSearch.CleanBothRooms | aspirador.py:50 | the script's `bfs` call returns a run from (L, S, S) to (L, C, C) of exactly five states |

## Left out

- All drawing, windows, fonts, sleeping and clock ticks (`desenhar_tabuleiro`, `desenhar_ambiente`, `executar_simulacao`): these are user interface and timing, not search logic.
- `exibir_estatisticas` in `puzzle.py`: it only prints. The counts it reuses are `CorrectTiles` and `ManhattanDistance`.
- The module-level runs of `puzzle.py` and `puzzle_dfs_antigo.py`: they call the modelled searches on fixed boards. The vacuum script's run is modelled, as `CleanBothRooms`.
- Aliasing and copying of Python lists: boards are values. `mover` copies its argument before the swap, so it never changes it, and that holds by construction.
- Heuristics beyond the two `puzzle.py` defines: `a_estrela` accepts any callable, but the model only takes `MisplacedCount` or `ManhattanSum`. `pecas_corretas` counts tiles in place, which is not an estimate of slides left, so it is not one of the choices.
- BestFirst.PopMin: does not fix which of several entries tied on (priority, cost) comes out. `heapq` then compares boards and paths, an ordering the model leaves open.
- BestFirst.AStar: does not state that the returned path is a shortest one. The heuristics' admissibility and consistency are proved, in `EstimateAdmissible` and `ManhattanStep`, but optimality of the search is not.
- BestFirst.AStar: requires a 3 × 3 start board with a blank and a 3 × 3 goal. `mover` fails on a board without a 0. Among 3 × 3 boards, the one case this excludes is a start without a blank that already equals the goal, which the source would return at once.
- BestFirst.AStar: boards of other shapes are not modelled. On a larger board the source finds the blank and slides only within the top-left 3 × 3 corner, and `estados_iguais` and the heuristics compare only that corner, while keys and copies take whole rows. A blank outside the corner makes `mover` fail, and a smaller board fails with an index error. Such a start or goal is outside the model.
- DepthFirst.Dfs: requires a 3 × 3 start board with a blank, because `mover` fails on a board without a 0, and a 3 × 3 goal. The goal test `estado == objetivo` never fails, so the goal's shape is only a modelling limit; the next line says what the source does with other shapes.
- DepthFirst.Dfs: boards of other shapes are not modelled. On a larger start the source slides only within the top-left 3 × 3 corner, while keys, copies and the goal test `estado == objetivo` use the whole board. A blank outside the corner makes `mover` fail, and a goal of another shape than the start never matches, so the source returns `None`. Such a start or goal is outside the model.
- BestFirst.Children: does not state the priority of the pushed entries; `Pushes` states it (cost + 1 plus the heuristic of the neighbour).
- BestFirst.Pushes: does not state the order of the pushed entries. The heap's pop order depends only on (priority, cost), and ties are left open in `PopMin`, so the order of pushes does not change what the model promises.
- VacuumWorld.State: the fields are characters, while the source uses one-letter strings. Only single letters ever occur.
- VacuumSearch.CleanBothRooms: states the plan's length and endpoints, not which of the shortest plans the queue order picks.

=== FILE: bestfirst.dfy ===
/**
  `a_estrela` of `puzzle.py`: best-first search over a heap of
  (priority, cost, board, path) entries. Keys of expanded boards go in a
  visited set, checked when an entry is popped and again before a
  neighbour is pushed; the `memoria` record counts the work.
 */
module BestFirst {
  import opened Common
  import opened Puzzle
  import opened Heuristics
  import opened SearchSpace

  /** A heap entry; `path` holds the boards before `board`. */
  datatype Entry = Entry(priority: int, cost: nat, board: Board, path: seq<Board>)

  /**
    The `memoria` record: entries popped (`visitados`), keys of the boards
    expanded or returned (`estados_unicos`), longest path popped fresh
    (`max_profundidade`).
   */
  datatype Memory = Memory(popped: nat, unique: set<Key>, maxDepth: nat)

  // ---------------------------------------------------------------------------
  // The heap

  /** `e` comes no later than `f` in the heap's (priority, cost) order. */
  predicate NoLater(e: Entry, f: Entry) {
    e.priority < f.priority || (e.priority == f.priority && e.cost <= f.cost)
  }

  predicate IsMinimal(heap: seq<Entry>, i: int) {
    0 <= i < |heap| && forall j | 0 <= j < |heap| :: NoLater(heap[i], heap[j])
  }

  /** Every non-empty heap has an entry no later than all the others. */
  lemma {:induction false} MinimalExists(heap: seq<Entry>)
    requires |heap| > 0
    ensures exists i :: IsMinimal(heap, i)
  {
    if |heap| == 1 {
      assert IsMinimal(heap, 0);
    } else {
      var init := heap[..|heap| - 1];
      MinimalExists(init);
      var i :| IsMinimal(init, i);
      assert forall j | 0 <= j < |init| :: init[j] == heap[j];
      if NoLater(heap[i], Last(heap)) {
        assert IsMinimal(heap, i);
      } else {
        assert IsMinimal(heap, |heap| - 1);
      }
    }
  }

  /**
    `heapq.heappop`: removes one entry with the least (priority, cost). Which
    of several tied entries comes out is left open.
   */
  method PopMin(heap: seq<Entry>) returns (e: Entry, rest: seq<Entry>)
    requires |heap| > 0
    ensures forall f :: multiset(heap)[f] == multiset(rest)[f] + (if f == e then 1 else 0)
    ensures |rest| == |heap| - 1
    ensures e in heap && forall f | f in heap :: NoLater(e, f)
    ensures forall f | f in rest :: f in heap
    ensures forall f | f in heap && f != e :: f in rest
  {
    MinimalExists(heap);
    var i :| IsMinimal(heap, i);
    e, rest := heap[i], heap[..i] + heap[i + 1..];
    assert heap == heap[..i] + [heap[i]] + heap[i + 1..];
  }

  /** The keys of the boards waiting in the heap. */
  ghost function HeapKeys(heap: seq<Entry>): set<Key> {
    set e | e in heap && IsGrid(e.board) :: Serialize(e.board)
  }

  /** A pop loses at most the key of the entry it returns. */
  lemma HeapKeysAfterPop(heap: seq<Entry>, e: Entry, rest: seq<Entry>)
    requires IsGrid(e.board) && forall f | f in heap && f != e :: f in rest
    ensures HeapKeys(heap) <= HeapKeys(rest) + {Serialize(e.board)}
  {
  }

  lemma HeapKeysConcat(a: seq<Entry>, b: seq<Entry>)
    ensures HeapKeys(a + b) == HeapKeys(a) + HeapKeys(b)
  {
    assert forall e :: e in a + b <==> e in a || e in b;
  }

  // ---------------------------------------------------------------------------
  // Expanding a board

  /** How many boards of `ns`, counted with repetition, have a key outside `visited`. */
  ghost function CountFresh(ns: seq<Board>, visited: set<Key>): nat
    requires forall n | n in ns :: IsGrid(n)
  {
    if ns == [] then 0
    else (if Serialize(ns[0]) in visited then 0 else 1) + CountFresh(ns[1..], visited)
  }

  /** `r` holds as many entries as `ns` has boards with a key outside `visited`. */
  ghost predicate OnePerFresh(r: seq<Entry>, ns: seq<Board>, visited: set<Key>)
    requires forall n | n in ns :: IsGrid(n)
  {
    |r| == CountFresh(ns, visited)
  }

  /**
    The entries the loop over `gerar_vizinhos` pushes for the neighbours `ns`
    of `current`, reached along `path` at cost `cost`: one per neighbour
    whose key is not yet visited, in the order of `ns`.
   */
  function Pushes(ns: seq<Board>, visited: set<Key>, cost: nat, path: seq<Board>, current: Board,
                  goal: Board, hk: Heuristic): (r: seq<Entry>)
    requires forall n | n in ns :: IsGrid(n) && Estimable(hk, n, goal)
    ensures forall e | e in r :: e.board in ns && Serialize(e.board) !in visited
    ensures forall e | e in r :: e == Entry(cost + 1 + Estimate(hk, e.board, goal), cost + 1, e.board, path + [current])
    ensures forall n {:trigger n in ns} | n in ns && Serialize(n) !in visited :: Entry(cost + 1 + Estimate(hk, n, goal), cost + 1, n, path + [current]) in r
    ensures OnePerFresh(r, ns, visited)
  {
    if ns == [] then []
    else
      var tail := Pushes(ns[1..], visited, cost, path, current, goal, hk);
      assert forall n | n in ns :: n == ns[0] || n in ns[1..];
      if Serialize(ns[0]) !in visited then
        [Entry(cost + 1 + Estimate(hk, ns[0], goal), cost + 1, ns[0], path + [current])] + tail
      else
        tail
  }

  // ---------------------------------------------------------------------------
  // The search

  /** What every heap entry satisfies: its path (with its board) is a path of slides from `start`. */
  ghost predicate WellFormed(e: Entry, start: Board) {
    && HasBlank(e.board)
    && e.cost == |e.path|
    && IsPathFrom(e.path + [e.board], start)
  }

  /** Every entry waiting in the heap is well formed. */
  ghost predicate HeapWellFormed(heap: seq<Entry>, start: Board) {
    forall e | e in heap :: WellFormed(e, start)
  }

  /** The loop invariant of the search, apart from the statistics. */
  ghost predicate SearchInv(start: Board, goal: Board, heap: seq<Entry>, visited: set<Key>) {
    && HasBlank(start) && IsGrid(goal)
    && HeapWellFormed(heap, start)
    && Serialize(goal) !in visited
    && Serialize(start) in visited + HeapKeys(heap)
    && Frontier(visited, HeapKeys(heap))
    && AllReached(visited, start)
  }

  /** The entry pushed for neighbour `f.board` of a well-formed entry `e` is well formed. */
  lemma ChildWellFormed(start: Board, e: Entry, f: Entry)
    requires WellFormed(e, start)
    requires f.board in Neighbours(e.board)
    requires f.cost == e.cost + 1 && f.path == e.path + [e.board]
    ensures WellFormed(f, start)
  {
    PathExtend(e.path + [e.board], start, f.board);
  }

  /** Replacing a popped entry by entries for its neighbours keeps the heap well formed. */
  lemma PushKeepsWellFormed(start: Board, heap: seq<Entry>, e: Entry, rest: seq<Entry>, pushed: seq<Entry>)
    requires HeapWellFormed(heap, start) && e in heap
    requires forall f | f in rest :: f in heap
    requires forall f | f in pushed :: f.board in Neighbours(e.board) && f.cost == e.cost + 1 && f.path == e.path + [e.board]
    ensures HeapWellFormed(rest + pushed, start)
  {
    forall f | f in rest + pushed ensures WellFormed(f, start) {
      if f in rest {
        assert f in heap;
      } else {
        assert f in pushed;
        ChildWellFormed(start, e, f);
      }
    }
  }

  /** The board of a well-formed entry is reached from `start`, and drawn from its digits. */
  lemma EntryReached(start: Board, e: Entry)
    requires IsGrid(start) && WellFormed(e, start)
    ensures Reached(Serialize(e.board), start)
    ensures DrawnFrom(e.board, Digits(start))
  {
    var w := e.path + [e.board];
    assert IsPathFrom(w, start) && Last(w) == e.board;
    DrawnFromOwnDigits(start);
    PathDrawnFrom(w, Digits(start));
  }

  /** After the pushes, every neighbour is visited or has an entry among the pushed ones. */
  lemma PushesCover(ns: seq<Board>, visited: set<Key>, cost: nat, path: seq<Board>, current: Board,
                    goal: Board, hk: Heuristic)
    requires forall n | n in ns :: IsGrid(n) && Estimable(hk, n, goal)
    ensures forall n | n in ns :: Serialize(n) in visited + HeapKeys(Pushes(ns, visited, cost, path, current, goal, hk))
  {
    var r := Pushes(ns, visited, cost, path, current, goal, hk);
    forall n | n in ns ensures Serialize(n) in visited + HeapKeys(r) {
      if Serialize(n) !in visited {
        assert Entry(cost + 1 + Estimate(hk, n, goal), cost + 1, n, path + [current]) in r;
      }
    }
  }

  /** Dropping an entry whose board is already visited keeps the invariant. */
  lemma StalePop(start: Board, goal: Board, heap: seq<Entry>, visited: set<Key>, e: Entry, rest: seq<Entry>)
    requires SearchInv(start, goal, heap, visited) && e in heap
    requires forall f | f in rest :: f in heap
    requires forall f | f in heap && f != e :: f in rest
    requires Serialize(e.board) in visited
    ensures SearchInv(start, goal, rest, visited)
  {
    HeapKeysAfterPop(heap, e, rest);
  }

  /** Expanding `e`: the keys it leaves pending still account for every neighbour of every visited board. */
  lemma FreshFrontier(visited: set<Key>, heap: seq<Entry>, e: Entry, rest: seq<Entry>, pushed: seq<Entry>)
    requires HasBlank(e.board) && Frontier(visited, HeapKeys(heap)) && e in heap
    requires forall f | f in heap && f != e :: f in rest
    requires forall n {:trigger n in Neighbours(e.board)} | n in Neighbours(e.board)
               :: Serialize(n) in visited + {Serialize(e.board)} + HeapKeys(pushed)
    ensures visited + HeapKeys(heap) <= visited + {Serialize(e.board)} + HeapKeys(rest + pushed)
    ensures Frontier(visited + {Serialize(e.board)}, HeapKeys(rest + pushed))
  {
    HeapKeysAfterPop(heap, e, rest);
    HeapKeysConcat(rest, pushed);
    FrontierGrows(visited, HeapKeys(heap), HeapKeys(rest + pushed), e.board);
  }

  /** The entries pushed when `e` is expanded: one per neighbour whose key is not yet visited. */
  function Children(goal: Board, hk: Heuristic, visited: set<Key>, e: Entry): (r: seq<Entry>)
    requires HasBlank(e.board)
    requires forall n | n in Neighbours(e.board) :: IsGrid(n) && Estimable(hk, n, goal)
    ensures var ns := Neighbours(e.board);
            && (forall c | c in r :: c.board in ns && Serialize(c.board) !in visited && c.cost == e.cost + 1 && c.path == e.path + [e.board])
            && (forall n | n in ns && Serialize(n) !in visited :: exists c | c in r :: c.board == n)
            && OnePerFresh(r, ns, visited)
  {
    Pushes(Neighbours(e.board), visited, e.cost, e.path, e.board, goal, hk)
  }

  /** Every neighbour of a well-formed entry can be estimated against `goal`. */
  lemma ChildrenEstimable(start: Board, goal: Board, hk: Heuristic, e: Entry)
    requires HasBlank(start) && IsGrid(goal) && WellFormed(e, start)
    requires hk.ManhattanSum? ==> Digits(start) - {0} <= Digits(goal)
    ensures forall n | n in Neighbours(e.board) :: IsGrid(n) && Estimable(hk, n, goal)
  {
    EntryReached(start, e);
    NeighboursDrawnFrom(e.board, Digits(start));
    forall n | n in Neighbours(e.board) ensures IsGrid(n) && Estimable(hk, n, goal) {
      if hk.ManhattanSum? { DigitsCover(goal, n, Digits(start)); }
    }
  }

  /** The entries pushed for the neighbours of a well-formed entry are well formed. */
  lemma ExpandWellFormed(start: Board, goal: Board, hk: Heuristic, heap: seq<Entry>, visited: set<Key>,
                         e: Entry, rest: seq<Entry>)
    requires HeapWellFormed(heap, start) && e in heap
    requires forall f | f in rest :: f in heap
    requires HasBlank(e.board) && forall n | n in Neighbours(e.board) :: IsGrid(n) && Estimable(hk, n, goal)
    ensures HeapWellFormed(rest + Children(goal, hk, visited, e), start)
  {
    PushKeepsWellFormed(start, heap, e, rest, Children(goal, hk, visited, e));
  }

  /** The entries pushed for the unvisited neighbours of `e` keep every neighbour of every visited board accounted for. */
  lemma ExpandFrontier(goal: Board, hk: Heuristic, heap: seq<Entry>, visited: set<Key>, e: Entry, rest: seq<Entry>)
    requires Frontier(visited, HeapKeys(heap)) && e in heap
    requires forall f | f in heap && f != e :: f in rest
    requires HasBlank(e.board) && forall n | n in Neighbours(e.board) :: IsGrid(n) && Estimable(hk, n, goal)
    ensures visited + HeapKeys(heap)
              <= visited + {Serialize(e.board)} + HeapKeys(rest + Children(goal, hk, visited + {Serialize(e.board)}, e))
    ensures Frontier(visited + {Serialize(e.board)}, HeapKeys(rest + Children(goal, hk, visited + {Serialize(e.board)}, e)))
  {
    var visited' := visited + {Serialize(e.board)};
    PushesCover(Neighbours(e.board), visited', e.cost, e.path, e.board, goal, hk);
    FreshFrontier(visited, heap, e, rest, Children(goal, hk, visited', e));
  }

  /** Expanding a fresh, non-goal entry `e` keeps the search invariant. */
  lemma ExpandKeepsSearch(start: Board, goal: Board, hk: Heuristic, heap: seq<Entry>,
                          visited: set<Key>, e: Entry, rest: seq<Entry>)
    requires SearchInv(start, goal, heap, visited) && e in heap
    requires forall f | f in rest :: f in heap
    requires forall f | f in heap && f != e :: f in rest
    requires Serialize(e.board) !in visited && Serialize(e.board) != Serialize(goal)
    requires forall n | n in Neighbours(e.board) :: IsGrid(n) && Estimable(hk, n, goal)
    ensures SearchInv(start, goal, rest + Children(goal, hk, visited + {Serialize(e.board)}, e),
                      visited + {Serialize(e.board)})
  {
    assert WellFormed(e, start);
    ExpandWellFormed(start, goal, hk, heap, visited + {Serialize(e.board)}, e, rest);
    ExpandFrontier(goal, hk, heap, visited, e, rest);
    EntryReached(start, e);
  }

  /** A fresh pop marks a key of the finite space visited, so fewer keys remain unvisited. */
  lemma FreshPopShrinks(start: Board, goal: Board, heap: seq<Entry>, visited: set<Key>, e: Entry)
    requires SearchInv(start, goal, heap, visited) && e in heap && Serialize(e.board) !in visited
    ensures |KeysOver(Digits(start)) - (visited + {Serialize(e.board)})| < |KeysOver(Digits(start)) - visited|
  {
    EntryReached(start, e);
    ReachedInUniverse(Serialize(e.board), start);
    RemainingShrinks(KeysOver(Digits(start)), visited, Serialize(e.board));
  }

  /** A fresh pop of a board other than the goal: the invariant survives its expansion, and the measure shrinks. */
  lemma FreshPop(start: Board, goal: Board, hk: Heuristic, heap: seq<Entry>, visited: set<Key>, e: Entry, rest: seq<Entry>)
    requires SearchInv(start, goal, heap, visited) && e in heap
    requires forall f | f in rest :: f in heap
    requires forall f | f in heap && f != e :: f in rest
    requires Serialize(e.board) !in visited && !SameBoard(e.board, goal)
    requires hk.ManhattanSum? ==> Digits(start) - {0} <= Digits(goal)
    ensures forall n | n in Neighbours(e.board) :: IsGrid(n) && Estimable(hk, n, goal)
    ensures SearchInv(start, goal, rest + Children(goal, hk, visited + {Serialize(e.board)}, e),
                      visited + {Serialize(e.board)})
    ensures |KeysOver(Digits(start)) - (visited + {Serialize(e.board)})| < |KeysOver(Digits(start)) - visited|
  {
    SerializeFaithful(e.board, goal);
    ChildrenEstimable(start, goal, hk, e);
    ExpandKeepsSearch(start, goal, hk, heap, visited, e, rest);
    FreshPopShrinks(start, goal, heap, visited, e);
  }

  /** A fresh pop of the goal: its path leads from `start` to `goal`, and its key is reached. */
  lemma GoalPop(start: Board, goal: Board, heap: seq<Entry>, visited: set<Key>, e: Entry)
    requires SearchInv(start, goal, heap, visited) && e in heap && SameBoard(e.board, goal)
    ensures IsPathFrom(e.path + [e.board], start) && Last(e.path + [e.board]) == goal
    ensures AllReached(visited + {Serialize(e.board)}, start)
  {
    SerializeFaithful(e.board, goal);
    EntryReached(start, e);
  }

  /** The boards on the way to each entry were all visited. */
  ghost predicate PathsVisited(heap: seq<Entry>, visited: set<Key>) {
    forall e | e in heap :: AllVisited(e.path, visited)
  }

  /** Popping `e` keeps the paths of the remaining entries visited, and its own. */
  lemma PathsAfterPop(heap: seq<Entry>, visited: set<Key>, e: Entry, rest: seq<Entry>)
    requires PathsVisited(heap, visited) && e in heap && forall f | f in rest :: f in heap
    ensures AllVisited(e.path, visited) && PathsVisited(rest, visited)
  {
  }

  /** Entries pushed with `e`'s path extended by its now visited board keep every path visited. */
  lemma PathsAfterExpand(e: Entry, rest: seq<Entry>, pushed: seq<Entry>, visited: set<Key>)
    requires IsGrid(e.board) && AllVisited(e.path, visited) && PathsVisited(rest, visited)
    requires forall f | f in pushed :: f.path == e.path + [e.board]
    ensures PathsVisited(rest + pushed, visited + {Serialize(e.board)})
  {
    var visited' := visited + {Serialize(e.board)};
    assert AllVisited(e.path + [e.board], visited');
    forall f | f in rest + pushed ensures AllVisited(f.path, visited') {
      if f in rest {
        assert AllVisited(f.path, visited);
      }
    }
  }

  /** The statistics agree with the visited set, and `expanded` lists distinct visited keys. */
  ghost predicate StatsInv(visited: set<Key>, mem: Memory, expanded: seq<Key>) {
    && mem.unique == visited && |visited| <= mem.popped
    && Enumerates(expanded, visited)
  }

  /**
    What the search leaves behind: each expanded key once, among the
    reached keys the statistics count; all of them in the finite space, and
    no more expansions than there are reachable boards.
   */
  ghost predicate Finished(start: Board, mem: Memory, expanded: seq<Key>) {
    && IsGrid(start)
    && |mem.unique| <= mem.popped && AllReached(mem.unique, start) && mem.unique <= KeysOver(Digits(start))
    && Distinct(expanded) && (forall k | k in expanded :: k in mem.unique)
    && |expanded| <= |ReachableKeys(start)|
  }

  /** The bounds a search meets once its counts and expansions are among the reached keys. */
  lemma FinishedBounds(start: Board, mem: Memory, expanded: seq<Key>)
    requires IsGrid(start) && |mem.unique| <= mem.popped && AllReached(mem.unique, start)
    requires Distinct(expanded) && forall k | k in expanded :: k in mem.unique
    ensures mem.unique <= KeysOver(Digits(start))
    ensures |expanded| <= |ReachableKeys(start)|
    ensures Finished(start, mem, expanded)
  {
    AllInUniverse(mem.unique, start);
    ExpansionBound(expanded, start);
  }

  /** The heap holding only the start board, with nothing visited, meets the search invariant. */
  lemma StartSearch(start: Board, goal: Board, priority: int)
    requires HasBlank(start) && IsGrid(goal)
    ensures SearchInv(start, goal, [Entry(priority, 0, start, [])], {})
  {
    var heap := [Entry(priority, 0, start, [])];
    assert heap[0] in heap;
  }

  /**
    A search whose heap ran empty visited, and expanded, every board
    reachable from `start`, and so never the goal.
   */
  lemma HeapRanEmpty(start: Board, goal: Board, visited: set<Key>, mem: Memory, expanded: seq<Key>)
    requires SearchInv(start, goal, [], visited) && StatsInv(visited, mem, expanded)
    ensures Finished(start, mem, expanded) && Enumerates(expanded, mem.unique)
    ensures forall w | IsPathFrom(w, start) :: HasBlank(Last(w)) && Serialize(Last(w)) in expanded
    ensures forall w | IsPathFrom(w, start) :: Last(w) != goal
  {
    assert HeapKeys([]) == {};
    Exhausted(visited, start, goal);
    FinishedBounds(start, mem, expanded);
  }

  function Max(a: nat, b: nat): nat {
    if a < b then b else a
  }

  /** What a pop of `e` leaves behind, in each of the three cases of the loop body. */
  lemma PopOutcome(start: Board, goal: Board, hk: Heuristic, heap: seq<Entry>, visited: set<Key>, e: Entry, rest: seq<Entry>)
    requires SearchInv(start, goal, heap, visited) && e in heap
    requires forall f | f in rest :: f in heap
    requires forall f | f in heap && f != e :: f in rest
    requires hk.ManhattanSum? ==> Digits(start) - {0} <= Digits(goal)
    ensures WellFormed(e, start)
    ensures forall n | n in Neighbours(e.board) :: IsGrid(n) && Estimable(hk, n, goal)
    ensures Serialize(e.board) in visited ==> SearchInv(start, goal, rest, visited)
    ensures Serialize(e.board) !in visited && SameBoard(e.board, goal) ==>
              && IsPathFrom(e.path + [e.board], start) && Last(e.path + [e.board]) == goal
              && AllReached(visited + {Serialize(e.board)}, start)
    ensures Serialize(e.board) !in visited && !SameBoard(e.board, goal) ==>
              && SearchInv(start, goal, rest + Children(goal, hk, visited + {Serialize(e.board)}, e),
                           visited + {Serialize(e.board)})
              && |KeysOver(Digits(start)) - (visited + {Serialize(e.board)})| < |KeysOver(Digits(start)) - visited|
  {
    assert WellFormed(e, start);
    ChildrenEstimable(start, goal, hk, e);
    if Serialize(e.board) in visited {
      StalePop(start, goal, heap, visited, e, rest);
    } else if SameBoard(e.board, goal) {
      GoalPop(start, goal, heap, visited, e);
    } else {
      FreshPop(start, goal, hk, heap, visited, e, rest);
    }
  }

  /** Recording a fresh pop of key `k` keeps the statistics in step with the visited set. */
  lemma StatsFresh(visited: set<Key>, mem: Memory, expanded: seq<Key>, k: Key, depth: nat)
    requires StatsInv(visited, mem, expanded) && k !in visited
    ensures StatsInv(visited + {k}, Memory(mem.popped + 1, mem.unique + {k}, depth), expanded + [k])
  {
  }

  /**
    A fresh pop of the goal, counted in the statistics `mem'`: the returned
    path leads to the goal through expanded boards only, and `estados_unicos`
    is the expanded keys plus the goal's.
   */
  lemma GoalReturned(start: Board, goal: Board, heap: seq<Entry>, visited: set<Key>, mem: Memory, expanded: seq<Key>,
                     e: Entry, mem': Memory)
    requires SearchInv(start, goal, heap, visited) && StatsInv(visited, mem, expanded)
    requires e in heap && Serialize(e.board) !in visited && SameBoard(e.board, goal)
    requires AllVisited(e.path, visited)
    requires mem' == Memory(mem.popped + 1, mem.unique + {Serialize(e.board)}, Max(mem.maxDepth, |e.path|))
    ensures IsPathFrom(e.path + [e.board], start) && Last(e.path + [e.board]) == goal
    ensures ExpandedAlong(e.path + [e.board], expanded)
    ensures mem'.maxDepth >= |e.path| && Finished(start, mem', expanded)
    ensures Serialize(goal) in mem'.unique && Enumerates(expanded, mem'.unique - {Serialize(goal)})
  {
    GoalPop(start, goal, heap, visited, e);
    SerializeFaithful(e.board, goal);
    FinishedBounds(start, mem', expanded);
    FoundAlong(e.path, e.board, visited, expanded);
    assert mem'.unique - {Serialize(goal)} == visited;
  }

  /**
    One turn of the `while fila` loop: pop an entry with the least
    (priority, cost); skip it when its key is visited; otherwise mark it
    visited and return its path when it is the goal, or push an entry for
    each neighbour whose key is not visited.
   */
  method Iterate(start: Board, goal: Board, hk: Heuristic, heap: seq<Entry>, visited: set<Key>,
                 mem: Memory, ghost expanded: seq<Key>)
    returns (heap': seq<Entry>, visited': set<Key>, mem': Memory, ghost expanded': seq<Key>, found: Option<seq<Board>>)
    requires SearchInv(start, goal, heap, visited) && StatsInv(visited, mem, expanded) && heap != []
    requires hk.ManhattanSum? ==> Digits(start) - {0} <= Digits(goal)
    requires PathsVisited(heap, visited)
    ensures found.Some? ==> IsPathFrom(found.value, start) && Last(found.value) == goal
    ensures found.Some? ==> expanded' == expanded && ExpandedAlong(found.value, expanded)
    ensures found.None? ==> PathsVisited(heap', visited')
    ensures found.Some? ==> mem'.maxDepth >= |found.value| - 1 && Finished(start, mem', expanded')
    ensures found.Some? ==> Serialize(goal) in mem'.unique && Enumerates(expanded', mem'.unique - {Serialize(goal)})
    ensures found.None? ==> SearchInv(start, goal, heap', visited') && StatsInv(visited', mem', expanded')
    ensures found.None? ==> Progress(KeysOver(Digits(start)), visited, |heap|, visited', |heap'|)
  {
    var e, rest := PopMin(heap);
    PopOutcome(start, goal, hk, heap, visited, e, rest);
    PathsAfterPop(heap, visited, e, rest);
    var k := Serialize(e.board);
    if k in visited {
      heap', visited', mem', expanded', found := rest, visited, mem.(popped := mem.popped + 1), expanded, None;
    } else {
      visited' := visited + {k};
      mem' := Memory(mem.popped + 1, mem.unique + {k}, Max(mem.maxDepth, |e.path|));
      if SameBoard(e.board, goal) {
        GoalReturned(start, goal, heap, visited, mem, expanded, e, mem');
        heap', expanded', found := rest, expanded, Some(e.path + [e.board]);
      } else {
        StatsFresh(visited, mem, expanded, k, Max(mem.maxDepth, |e.path|));
        PathsAfterExpand(e, rest, Children(goal, hk, visited', e), visited);
        heap', expanded', found := rest + Children(goal, hk, visited', e), expanded + [k], None;
      }
    }
  }

  /**
    `a_estrela(inicio, objetivo, heuristica)`. The result is the path of
    boards from `start` to `goal`, or `None` once the heap runs empty; the
    ghost `expanded` lists, in order, the keys of the boards whose
    neighbours were generated.
   */
  method AStar(start: Board, goal: Board, hk: Heuristic)
    returns (r: Option<seq<Board>>, mem: Memory, ghost expanded: seq<Key>)
    requires HasBlank(start) && IsGrid(goal)
    requires hk.ManhattanSum? ==> Digits(start) - {0} <= Digits(goal)
    ensures r.Some? ==> IsPathFrom(r.value, start) && Last(r.value) == goal
    ensures r.Some? ==> mem.maxDepth >= |r.value| - 1
    ensures r.None? ==> forall w | IsPathFrom(w, start) :: Last(w) != goal
    ensures |mem.unique| <= mem.popped && mem.unique <= KeysOver(Digits(start))
    ensures Distinct(expanded) && forall k | k in expanded :: k in mem.unique && Reached(k, start)
    ensures |expanded| <= |ReachableKeys(start)|
    ensures r.Some? ==> Serialize(goal) in mem.unique && Enumerates(expanded, mem.unique - {Serialize(goal)})
    ensures r.None? ==> Enumerates(expanded, mem.unique)
    ensures r.None? ==> forall w | IsPathFrom(w, start) :: HasBlank(Last(w)) && Serialize(Last(w)) in expanded
    ensures r.Some? ==> ExpandedAlong(r.value, expanded)
  {
    DrawnFromOwnDigits(start);
    if hk.ManhattanSum? { DigitsCover(goal, start, Digits(start)); }
    var priority := Estimate(hk, start, goal);
    StartSearch(start, goal, priority);
    var heap := [Entry(priority, 0, start, [])];
    var visited: set<Key> := {};
    mem := Memory(0, {}, 0);
    expanded := [];
    while heap != []
      invariant SearchInv(start, goal, heap, visited) && StatsInv(visited, mem, expanded)
      invariant PathsVisited(heap, visited)
      decreases |KeysOver(Digits(start)) - visited|, |heap|
    {
      var found;
      heap, visited, mem, expanded, found := Iterate(start, goal, hk, heap, visited, mem, expanded);
      if found.Some? {
        r := found;
        return;
      }
    }
    r := None;
    HeapRanEmpty(start, goal, visited, mem, expanded);
  }
}

=== FILE: common.dfy ===
/**
  Small shared vocabulary: an optional value, the last element of a
  sequence, distinctness and two facts about the sizes of finite sets.
 */
module Common {

  /** The source's `None`-or-value returns (`mover`, `a_estrela`, `dfs`, `bfs`). */
  datatype Option<T> = None | Some(value: T)

  /** The source's `seq[-1]`. */
  function Last<T>(s: seq<T>): T
    requires |s| > 0
  {
    s[|s| - 1]
  }

  /** No element is listed twice. */
  predicate Distinct<T(==)>(s: seq<T>) {
    forall i, j | 0 <= i < j < |s| :: s[i] != s[j]
  }

  /** `s` lists the elements of `e`, each exactly once. */
  ghost predicate Enumerates<T(!new)>(s: seq<T>, e: set<T>) {
    Distinct(s) && forall x :: x in s <==> x in e
  }

  /**
    A search loop's measure went down: more elements of the finite universe
    `u` visited, or as many and a shorter agenda.
   */
  ghost predicate Progress<T>(u: set<T>, visited: set<T>, agenda: nat, visited': set<T>, agenda': nat) {
    |u - visited'| < |u - visited| || (|u - visited'| == |u - visited| && agenda' < agenda)
  }

  /**
    Adding a fresh element `x` of the universe `u` to `v` leaves fewer
    elements of `u` outside: the measure the search loops decrease.
   */
  lemma RemainingShrinks<T>(u: set<T>, v: set<T>, x: T)
    requires x in u && x !in v
    ensures |u - (v + {x})| < |u - v|
  {
    assert u - v == (u - (v + {x})) + {x};
  }

  /** A sequence without repetitions has as many elements as its set. */
  lemma {:induction false} DistinctCard<T>(s: seq<T>)
    requires Distinct(s)
    ensures |set x | x in s| == |s|
  {
    if s != [] {
      var init := s[..|s| - 1];
      assert Distinct(init);
      DistinctCard(init);
      assert (set x | x in s) == (set x | x in init) + {Last(s)};
    }
  }

  /** A subset is no larger than its superset. */
  lemma {:induction false} SubsetCard<T>(a: set<T>, b: set<T>)
    requires a <= b
    ensures |a| <= |b|
    decreases |a|
  {
    if a != {} {
      var x :| x in a;
      SubsetCard(a - {x}, b - {x});
    }
  }

  /** Listing one more, fresh, element. */
  lemma EnumeratesFresh<T(!new)>(s: seq<T>, e: set<T>, x: T)
    requires Enumerates(s, e) && x !in e
    ensures Enumerates(s + [x], e + {x})
  {
  }

  /** A list of the elements of a set, each once, is as long as the set is large. */
  lemma EnumeratesCard<T(!new)>(s: seq<T>, e: set<T>)
    requires Enumerates(s, e)
    ensures |s| == |e|
  {
    DistinctCard(s);
    assert (set x | x in s) == e;
  }
}

=== FILE: depthfirst.dfy ===
/**
  `dfs` of `puzzle_dfs_antigo.py`: depth-first search with an explicit
  stack of (board, path) frames. A frame's key is checked against the
  visited set only when it is popped; the goal test comes after the key is
  marked visited; the successors are pushed for ↑, ↓, ←, → with no visited
  check, so the → successor is the next one popped.
 */
module DepthFirst {
  import opened Common
  import opened Puzzle
  import opened SearchSpace

  /** A stack entry: a board and the boards before it on the way from the start. */
  datatype Frame = Frame(board: Board, path: seq<Board>)

  /** One frame per board of `ns`, in the order of `ns`, each with the same `path`. */
  function Frames(ns: seq<Board>, path: seq<Board>): (r: seq<Frame>)
    ensures |r| == |ns|
    ensures forall i | 0 <= i < |ns| :: r[i] == Frame(ns[i], path)
  {
    if ns == [] then [] else [Frame(ns[0], path)] + Frames(ns[1..], path)
  }

  /**
    The stack after the top frame `f` is popped (leaving `rest`) and a frame
    is pushed for every neighbour of its board, each carrying `f`'s path
    extended by `f`'s board.
   */
  function Expand(f: Frame, rest: seq<Frame>): (r: seq<Frame>)
    requires HasBlank(f.board)
    ensures var ns := Neighbours(f.board);
            && |r| == |rest| + |ns| && r[..|rest|] == rest
            && forall i | 0 <= i < |ns| :: r[|rest| + i] == Frame(ns[i], f.path + [f.board])
    ensures |rest| + 2 <= |r| <= |rest| + 4
    ensures forall g | g in r :: g in rest || (g.board in Neighbours(f.board) && g.path == f.path + [f.board])
    ensures forall n | n in Neighbours(f.board) :: Frame(n, f.path + [f.board]) in r
  {
    var pushed := Frames(Neighbours(f.board), f.path + [f.board]);
    assert forall n | n in Neighbours(f.board) :: Frame(n, f.path + [f.board]) in pushed by {
      forall n | n in Neighbours(f.board) ensures Frame(n, f.path + [f.board]) in pushed {
        var i :| 0 <= i < |Neighbours(f.board)| && Neighbours(f.board)[i] == n;
        assert pushed[i] == Frame(n, f.path + [f.board]);
      }
    }
    rest + pushed
  }

  /**
    The order of `movimentos`: the → successor ends on top of the stack and
    is popped next; the ↑ successor lies deepest among the new frames.
   */
  lemma RightExploredFirst(f: Frame, rest: seq<Frame>)
    requires HasBlank(f.board)
    ensures Move(f.board, Right).Some? ==>
              Last(Expand(f, rest)) == Frame(Move(f.board, Right).value, f.path + [f.board])
    ensures Move(f.board, Up).Some? ==>
              Expand(f, rest)[|rest|] == Frame(Move(f.board, Up).value, f.path + [f.board])
  {
    NeighboursOrder(f.board);
    var ns := Neighbours(f.board);
    var pushed := Frames(ns, f.path + [f.board]);
    assert Expand(f, rest) == rest + pushed;
    assert Last(pushed) == Frame(Last(ns), f.path + [f.board]);
    assert pushed[0] == Frame(ns[0], f.path + [f.board]);
  }

  // ---------------------------------------------------------------------------
  // The search

  /** The keys of the boards on the stack. */
  ghost function StackKeys(stack: seq<Frame>): set<Key> {
    set f | f in stack && IsGrid(f.board) :: Serialize(f.board)
  }

  /** A frame's path, with its board, is a path of slides from `start`. */
  ghost predicate FrameOk(f: Frame, start: Board) {
    HasBlank(f.board) && IsPathFrom(f.path + [f.board], start)
  }

  ghost predicate StackOk(stack: seq<Frame>, start: Board) {
    forall f | f in stack :: FrameOk(f, start)
  }

  /** The loop invariant of `dfs`. */
  ghost predicate DfsInv(start: Board, goal: Board, stack: seq<Frame>, visited: set<Key>) {
    && HasBlank(start) && IsGrid(goal)
    && StackOk(stack, start)
    && Serialize(goal) !in visited
    && Serialize(start) in visited + StackKeys(stack)
    && Frontier(visited, StackKeys(stack))
    && AllReached(visited, start)
  }

  /** The boards on the way to each frame were all visited. */
  ghost predicate PathsVisited(stack: seq<Frame>, visited: set<Key>) {
    forall f | f in stack :: AllVisited(f.path, visited)
  }

  /** What the search promises about its expansions. */
  ghost predicate ExpandedOk(start: Board, goal: Board, expanded: seq<Key>)
    requires IsGrid(goal)
  {
    && Distinct(expanded)
    && Serialize(goal) !in expanded
    && forall k | k in expanded :: Reached(k, start)
  }

  /** The board of a frame on the stack is reached from `start`. */
  lemma FrameReached(start: Board, f: Frame)
    requires FrameOk(f, start)
    ensures Reached(Serialize(f.board), start)
  {
    var w := f.path + [f.board];
    assert Last(w) == f.board;
    PathReached(w, start);
  }

  lemma StackKeysAfterPop(stack: seq<Frame>)
    requires stack != [] && IsGrid(Last(stack).board)
    ensures StackKeys(stack) == StackKeys(stack[..|stack| - 1]) + {Serialize(Last(stack).board)}
  {
    var rest := stack[..|stack| - 1];
    assert stack == rest + [Last(stack)];
    assert forall f :: f in stack <==> f in rest || f == Last(stack);
  }

  /** Popping a frame whose key is visited keeps the invariant. */
  lemma StaleTurn(start: Board, goal: Board, stack: seq<Frame>, visited: set<Key>)
    requires DfsInv(start, goal, stack, visited) && stack != []
    requires HasBlank(Last(stack).board) && Serialize(Last(stack).board) in visited
    ensures DfsInv(start, goal, stack[..|stack| - 1], visited)
  {
    StackKeysAfterPop(stack);
    var rest := stack[..|stack| - 1];
    assert forall f | f in rest :: f in stack;
  }

  /** The frames pushed for a frame of the stack are frames of paths from `start`. */
  lemma ExpandOk(start: Board, stack: seq<Frame>)
    requires StackOk(stack, start) && stack != [] && HasBlank(Last(stack).board)
    ensures StackOk(Expand(Last(stack), stack[..|stack| - 1]), start)
  {
    var f, rest := Last(stack), stack[..|stack| - 1];
    assert FrameOk(f, start);
    forall g | g in Expand(f, rest) ensures FrameOk(g, start) {
      if g in rest {
        assert g in stack;
      } else {
        PathExtend(f.path + [f.board], start, g.board);
      }
    }
  }

  /** Expanding the top frame keeps every neighbour of every visited board accounted for. */
  lemma ExpandFrontier(stack: seq<Frame>, visited: set<Key>)
    requires Frontier(visited, StackKeys(stack)) && stack != [] && HasBlank(Last(stack).board)
    ensures visited + StackKeys(stack)
              <= visited + {Serialize(Last(stack).board)} + StackKeys(Expand(Last(stack), stack[..|stack| - 1]))
    ensures Frontier(visited + {Serialize(Last(stack).board)}, StackKeys(Expand(Last(stack), stack[..|stack| - 1])))
  {
    var f, rest := Last(stack), stack[..|stack| - 1];
    var stack' := Expand(f, rest);
    StackKeysAfterPop(stack);
    assert forall g | g in rest :: g in stack';
    forall n | n in Neighbours(f.board) ensures Serialize(n) in StackKeys(stack') {
      assert Frame(n, f.path + [f.board]) in stack';
    }
    FrontierGrows(visited, StackKeys(stack), StackKeys(stack'), f.board);
  }

  /** Expanding a fresh, non-goal top frame keeps the invariant. */
  lemma FreshTurn(start: Board, goal: Board, stack: seq<Frame>, visited: set<Key>)
    requires DfsInv(start, goal, stack, visited) && stack != []
    requires HasBlank(Last(stack).board) && Serialize(Last(stack).board) !in visited
    requires Last(stack).board != goal
    ensures DfsInv(start, goal, Expand(Last(stack), stack[..|stack| - 1]), visited + {Serialize(Last(stack).board)})
  {
    var f := Last(stack);
    assert f in stack;
    SerializeFaithful(f.board, goal);
    ExpandOk(start, stack);
    ExpandFrontier(stack, visited);
    FrameReached(start, f);
  }

  /** A fresh pop visits one more key of the finite space. */
  lemma FreshShrinks(start: Board, f: Frame, visited: set<Key>)
    requires IsGrid(start) && FrameOk(f, start) && Serialize(f.board) !in visited
    ensures Reached(Serialize(f.board), start)
    ensures |KeysOver(Digits(start)) - (visited + {Serialize(f.board)})| < |KeysOver(Digits(start)) - visited|
  {
    FrameReached(start, f);
    ReachedInUniverse(Serialize(f.board), start);
    RemainingShrinks(KeysOver(Digits(start)), visited, Serialize(f.board));
  }

  /** What popping the top frame leads to, in each of the three cases of the loop body. */
  lemma TurnOutcome(start: Board, goal: Board, stack: seq<Frame>, visited: set<Key>)
    requires DfsInv(start, goal, stack, visited) && stack != []
    ensures FrameOk(Last(stack), start)
    ensures Serialize(Last(stack).board) in visited ==> DfsInv(start, goal, stack[..|stack| - 1], visited)
    ensures Serialize(Last(stack).board) !in visited && Last(stack).board == goal ==>
              IsPathFrom(Last(stack).path + [goal], start)
    ensures Serialize(Last(stack).board) !in visited && Last(stack).board != goal ==>
              && DfsInv(start, goal, Expand(Last(stack), stack[..|stack| - 1]), visited + {Serialize(Last(stack).board)})
              && Reached(Serialize(Last(stack).board), start)
              && |KeysOver(Digits(start)) - (visited + {Serialize(Last(stack).board)})| < |KeysOver(Digits(start)) - visited|
  {
    var f := Last(stack);
    assert f in stack;
    if Serialize(f.board) in visited {
      StaleTurn(start, goal, stack, visited);
    } else if f.board != goal {
      FreshTurn(start, goal, stack, visited);
      FreshShrinks(start, f, visited);
    }
  }

  /** Popping a frame keeps the paths of the frames below it visited, and its own. */
  lemma PathsAfterPop(stack: seq<Frame>, visited: set<Key>)
    requires stack != [] && PathsVisited(stack, visited)
    ensures AllVisited(Last(stack).path, visited)
    ensures PathsVisited(stack[..|stack| - 1], visited)
  {
    assert Last(stack) in stack;
    assert forall g | g in stack[..|stack| - 1] :: g in stack;
  }

  /** Expanding a frame whose path was visited, once its board is visited too, pushes frames whose paths are visited. */
  lemma PathsAfterExpand(f: Frame, rest: seq<Frame>, visited: set<Key>)
    requires HasBlank(f.board) && AllVisited(f.path, visited) && PathsVisited(rest, visited)
    ensures PathsVisited(Expand(f, rest), visited + {Serialize(f.board)})
  {
    var visited' := visited + {Serialize(f.board)};
    assert AllVisited(f.path + [f.board], visited');
    forall g | g in Expand(f, rest) ensures AllVisited(g.path, visited') {
      if g in rest {
        assert AllVisited(g.path, visited);
      }
    }
  }

  /** Recording the expansion of a fresh key keeps the expansion record in step. */
  lemma ExpansionsFresh(start: Board, goal: Board, visited: set<Key>, expanded: seq<Key>, k: Key)
    requires IsGrid(goal) && Enumerates(expanded, visited) && ExpandedOk(start, goal, expanded)
    requires k !in visited && k != Serialize(goal) && Reached(k, start)
    ensures Enumerates(expanded + [k], visited + {k}) && ExpandedOk(start, goal, expanded + [k])
  {
  }

  /**
    One turn of the `while stack` loop: pop the top frame; skip it when its
    key is visited; otherwise mark it visited and return its path when its
    board is the goal, or push a frame for each of its neighbours.
   */
  method Turn(start: Board, goal: Board, stack: seq<Frame>, visited: set<Key>, ghost expanded: seq<Key>)
    returns (stack': seq<Frame>, visited': set<Key>, ghost expanded': seq<Key>, found: Option<seq<Board>>)
    requires DfsInv(start, goal, stack, visited) && Enumerates(expanded, visited) && stack != []
    requires HasBlank(Last(stack).board) && ExpandedOk(start, goal, expanded) && PathsVisited(stack, visited)
    ensures visited <= visited' && ExpandedOk(start, goal, expanded')
    ensures var f, rest, k := Last(stack), stack[..|stack| - 1], Serialize(Last(stack).board);
            && (k in visited ==> found.None? && stack' == rest && visited' == visited)
            && (k !in visited && f.board == goal ==> found == Some(f.path + [f.board]))
            && (k !in visited && f.board != goal ==>
                  found.None? && visited' == visited + {k} && stack' == Expand(f, rest) && expanded' == expanded + [k])
    ensures found.Some? ==> IsPathFrom(found.value, start) && Last(found.value) == goal
    ensures found.Some? ==> expanded' == expanded && ExpandedAlong(found.value, expanded)
    ensures found.None? ==> PathsVisited(stack', visited')
    ensures found.None? ==> DfsInv(start, goal, stack', visited') && Enumerates(expanded', visited')
    ensures found.None? ==> Progress(KeysOver(Digits(start)), visited, |stack|, visited', |stack'|)
    ensures found.None? && visited' != visited ==>
              && |stack'| >= |stack| + 1
              && (Move(Last(stack).board, Right).Some? ==> Last(stack').board == Move(Last(stack).board, Right).value)
  {
    var f, rest := Last(stack), stack[..|stack| - 1];
    TurnOutcome(start, goal, stack, visited);
    PathsAfterPop(stack, visited);
    var k := Serialize(f.board);
    if k in visited {
      stack', visited', expanded', found := rest, visited, expanded, None;
    } else {
      visited' := visited + {k};
      if f.board == goal {
        FoundAlong(f.path, f.board, visited, expanded);
        stack', expanded', found := rest, expanded, Some(f.path + [f.board]);
      } else {
        SerializeFaithful(f.board, goal);
        ExpansionsFresh(start, goal, visited, expanded, k);
        RightExploredFirst(f, rest);
        PathsAfterExpand(f, rest, visited);
        stack', expanded', found := Expand(f, rest), expanded + [k], None;
      }
    }
  }

  /**
    `dfs(inicio, objetivo)`: the path of boards from `start` to `goal` the
    depth-first order finds first, or `None` once the stack runs empty. The
    ghost `expanded` lists, in order, the keys of the boards whose
    successors were pushed.
   */
  method Dfs(start: Board, goal: Board) returns (r: Option<seq<Board>>, ghost expanded: seq<Key>)
    requires HasBlank(start) && IsGrid(goal)
    ensures r.Some? ==> IsPathFrom(r.value, start) && Last(r.value) == goal
    ensures r.None? ==> forall w | IsPathFrom(w, start) :: Last(w) != goal
    ensures Distinct(expanded) && Serialize(goal) !in expanded
    ensures forall k | k in expanded :: Reached(k, start)
    ensures |expanded| <= |ReachableKeys(start)|
    ensures r.None? ==> forall w | IsPathFrom(w, start) :: HasBlank(Last(w)) && Serialize(Last(w)) in expanded
    ensures r.Some? ==> ExpandedAlong(r.value, expanded)
  {
    var stack := [Frame(start, [])];
    var visited: set<Key> := {};
    expanded := [];
    assert DfsInv(start, goal, stack, visited) by {
      assert stack[0] in stack;
    }
    while stack != []
      invariant DfsInv(start, goal, stack, visited) && Enumerates(expanded, visited)
      invariant ExpandedOk(start, goal, expanded)
      invariant PathsVisited(stack, visited)
      decreases |KeysOver(Digits(start)) - visited|, |stack|
    {
      var found;
      assert Last(stack) in stack;
      stack, visited, expanded, found := Turn(start, goal, stack, visited, expanded);
      if found.Some? {
        r := found;
        ExpansionBound(expanded, start);
        return;
      }
    }
    r := None;
    StackRanEmpty(start, goal, visited, expanded);
  }

  /**
    A search whose stack ran empty visited, and expanded, every board
    reachable from `start`, and so never the goal.
   */
  lemma StackRanEmpty(start: Board, goal: Board, visited: set<Key>, expanded: seq<Key>)
    requires DfsInv(start, goal, [], visited) && Enumerates(expanded, visited) && ExpandedOk(start, goal, expanded)
    ensures |expanded| <= |ReachableKeys(start)|
    ensures forall w | IsPathFrom(w, start) :: HasBlank(Last(w)) && Serialize(Last(w)) in expanded
    ensures forall w | IsPathFrom(w, start) :: Last(w) != goal
  {
    ExpansionBound(expanded, start);
    assert StackKeys([]) == {};
    Exhausted(visited, start, goal);
  }
}

=== FILE: heuristics.dfy ===
/**
  The two heuristics of `puzzle.py` (misplaced tiles and Manhattan distance)
  and the correct-tile count the statistics report uses.
 */
module Heuristics {
  import opened Common
  import opened Puzzle

  predicate AllInGrid(ps: seq<Pos>) {
    forall p | p in ps :: InGrid(p)
  }

  lemma CellsCoverGrid()
    ensures AllInGrid(Cells) && Distinct(Cells) && |Cells| == 9
    ensures forall p | InGrid(p) :: p in Cells
  {
  }

  // ---------------------------------------------------------------------------
  // The counting sums over the cells `ps`

  /** Tiles (non-blank cells) of `b` among `ps`. */
  function TilesOver(b: Board, ps: seq<Pos>): nat
    requires IsGrid(b) && AllInGrid(ps)
  {
    if ps == [] then 0
    else (if At(b, ps[0]) != 0 then 1 else 0) + TilesOver(b, ps[1..])
  }

  /** Tiles of `b` among `ps` that sit where `g` has the same value. */
  function CorrectOver(b: Board, g: Board, ps: seq<Pos>): nat
    requires IsGrid(b) && IsGrid(g) && AllInGrid(ps)
  {
    if ps == [] then 0
    else (if At(b, ps[0]) != 0 && At(b, ps[0]) == At(g, ps[0]) then 1 else 0) + CorrectOver(b, g, ps[1..])
  }

  /** Tiles of `b` among `ps` that sit where `g` has a different value. */
  function MisplacedOver(b: Board, g: Board, ps: seq<Pos>): nat
    requires IsGrid(b) && IsGrid(g) && AllInGrid(ps)
  {
    if ps == [] then 0
    else (if At(b, ps[0]) != 0 && At(b, ps[0]) != At(g, ps[0]) then 1 else 0) + MisplacedOver(b, g, ps[1..])
  }

  /** Every tile of `b` sits on a cell where `g` has the same value. */
  ghost predicate InPlace(b: Board, g: Board)
    requires IsGrid(b) && IsGrid(g)
  {
    forall p | InGrid(p) && At(b, p) != 0 :: At(b, p) == At(g, p)
  }

  /** `pecas_corretas`: each tile of `b` is counted here or by `pecas_fora_do_lugar`, never by both. */
  function CorrectTiles(b: Board, g: Board): (r: nat)
    requires IsGrid(b) && IsGrid(g)
    ensures r + MisplacedTiles(b, g) == TilesOver(b, Cells)
  {
    CellsCoverGrid();
    CountsSplitOver(b, g, Cells);
    CorrectOver(b, g, Cells)
  }

  /** `pecas_fora_do_lugar`: zero exactly when every tile is in its goal place. */
  function MisplacedTiles(b: Board, g: Board): (r: nat)
    requires IsGrid(b) && IsGrid(g)
    ensures r == 0 <==> InPlace(b, g)
  {
    CellsCoverGrid();
    MisplacedOverZero(b, g, Cells);
    MisplacedOver(b, g, Cells)
  }

  lemma {:induction false} CountsSplitOver(b: Board, g: Board, ps: seq<Pos>)
    requires IsGrid(b) && IsGrid(g) && AllInGrid(ps)
    ensures CorrectOver(b, g, ps) + MisplacedOver(b, g, ps) == TilesOver(b, ps)
  {
    if ps != [] {
      CountsSplitOver(b, g, ps[1..]);
    }
  }

  /** If the only blank of `b` is `z`, the tiles among distinct cells `ps` are all of `ps` but `z`. */
  lemma {:induction false} TilesOverOneBlank(b: Board, ps: seq<Pos>, z: Pos)
    requires IsGrid(b) && AllInGrid(ps) && Distinct(ps) && InGrid(z) && At(b, z) == 0
    requires forall q | InGrid(q) && At(b, q) == 0 :: q == z
    ensures TilesOver(b, ps) == |ps| - (if z in ps then 1 else 0)
  {
    if ps != [] {
      assert Distinct(ps[1..]);
      TilesOverOneBlank(b, ps[1..], z);
      assert z in ps <==> z == ps[0] || z in ps[1..];
      assert ps[0] !in ps[1..];
    }
  }

  /**
    The correct and the misplaced tiles together are all the tiles of `b`:
    eight on a valid board.
   */
  lemma CorrectPlusMisplaced(b: Board, g: Board)
    requires IsGrid(b) && IsGrid(g)
    ensures CorrectTiles(b, g) + MisplacedTiles(b, g) == TilesOver(b, Cells)
    ensures Valid(b) ==> CorrectTiles(b, g) + MisplacedTiles(b, g) == 8
  {
    CellsCoverGrid();
    CountsSplitOver(b, g, Cells);
    if Valid(b) {
      ValidBlank(b);
      TilesOverOneBlank(b, Cells, Blank(b));
    }
  }

  lemma {:induction false} MisplacedOverZero(b: Board, g: Board, ps: seq<Pos>)
    requires IsGrid(b) && IsGrid(g) && AllInGrid(ps)
    ensures MisplacedOver(b, g, ps) == 0 <==> forall p | p in ps && At(b, p) != 0 :: At(b, p) == At(g, p)
  {
    if ps != [] {
      MisplacedOverZero(b, g, ps[1..]);
      assert forall p | p in ps :: p == ps[0] || p in ps[1..];
    }
  }

  /** On valid boards no tile is misplaced exactly when the board is the goal. */
  lemma MisplacedZeroIff(b: Board, g: Board)
    requires Valid(b) && Valid(g)
    ensures MisplacedTiles(b, g) == 0 <==> b == g
  {
    CellsCoverGrid();
    MisplacedOverZero(b, g, Cells);
    if MisplacedTiles(b, g) == 0 {
      ValidBlank(b);
      ValidBlank(g);
      assert Blank(b) == Blank(g) by {
        assert Blank(g) in Cells;
      }
      forall x | InGrid(x) ensures At(b, x) == At(g, x) {
        assert x in Cells;
      }
      BoardExt(b, g);
    }
  }

  // ---------------------------------------------------------------------------
  // distancia_manhattan

  function Abs(x: int): nat {
    if x < 0 then -x else x
  }

  /** Grid distance `abs(i - oi) + abs(j - oj)`. */
  function Dist(p: Pos, q: Pos): nat {
    Abs(p.row - q.row) + Abs(p.col - q.col)
  }

  /**
    The dict `posicoes_objetivo` built by the comprehension over the cells
    `ps` of `g` in order: each value maps to a cell holding it, a later cell
    overwriting an earlier one.
   */
  function GoalPositions(g: Board, ps: seq<Pos>): (m: map<int, Pos>)
    requires IsGrid(g) && AllInGrid(ps)
    ensures forall p | p in ps :: At(g, p) in m
    ensures forall v | v in m :: m[v] in ps && At(g, m[v]) == v
    decreases |ps|
  {
    if ps == [] then map[]
    else
      var last := ps[|ps| - 1];
      var m := GoalPositions(g, ps[..|ps| - 1]);
      assert forall p | p in ps :: p == last || p in ps[..|ps| - 1];
      m[At(g, last) := last]
  }

  /** On a board whose cells hold distinct values, each value maps back to its own cell. */
  lemma GoalPositionsOfDistinct(g: Board, ps: seq<Pos>)
    requires IsGrid(g) && AllInGrid(ps)
    requires forall p, q | InGrid(p) && InGrid(q) && At(g, p) == At(g, q) :: p == q
    ensures forall p | p in ps :: GoalPositions(g, ps)[At(g, p)] == p
  {
  }

  /** Every tile of `b` is a key of `posicoes_objetivo`, so the dict lookup cannot fail. */
  ghost predicate Covers(g: Board, b: Board)
    requires IsGrid(g) && IsGrid(b)
  {
    forall p | InGrid(p) && At(b, p) != 0 :: At(b, p) in GoalPositions(g, Cells)
  }

  /** A value held by one of the cells `ps` is a key of the dict built over `ps`. */
  lemma KeyOfCell(g: Board, ps: seq<Pos>, q: Pos)
    requires IsGrid(g) && AllInGrid(ps) && q in ps
    ensures At(g, q) in GoalPositions(g, ps)
  {
  }

  /** A valid goal holds every digit, so it covers any board whose cells are digits. */
  lemma ValidCovers(g: Board, b: Board)
    requires Valid(g) && IsGrid(b)
    requires forall p | InGrid(p) :: 0 <= At(b, p) < 9
    ensures Covers(g, b)
  {
    CellsCoverGrid();
    forall p | InGrid(p) && At(b, p) != 0 ensures At(b, p) in GoalPositions(g, Cells) {
      ValuesAreCells(g, At(b, p));
      var q :| InGrid(q) && At(g, q) == At(b, p);
      KeyOfCell(g, Cells, q);
    }
  }

  ghost predicate Indexed(b: Board, m: map<int, Pos>, ps: seq<Pos>)
    requires IsGrid(b) && AllInGrid(ps)
  {
    forall p | p in ps && At(b, p) != 0 :: At(b, p) in m
  }

  /** The term the source adds for cell `p`: nothing for the blank, else the distance to the tile's goal cell. */
  function Term(b: Board, m: map<int, Pos>, p: Pos): nat
    requires IsGrid(b) && InGrid(p) && (At(b, p) != 0 ==> At(b, p) in m)
  {
    if At(b, p) != 0 then Dist(p, m[At(b, p)]) else 0
  }

  function ManhattanOver(b: Board, m: map<int, Pos>, ps: seq<Pos>): nat
    requires IsGrid(b) && AllInGrid(ps) && Indexed(b, m, ps)
  {
    if ps == [] then 0
    else Term(b, m, ps[0]) + ManhattanOver(b, m, ps[1..])
  }

  /**
    `distancia_manhattan`; the source raises `KeyError` when a tile of `b` is
    missing from `g`. Each misplaced tile is at least one step from its goal
    cell, so the sum is at least `pecas_fora_do_lugar`, and it is zero only
    when every tile is in place.
   */
  function ManhattanDistance(b: Board, g: Board): (r: nat)
    requires IsGrid(b) && IsGrid(g) && Covers(g, b)
    ensures AtLeastMisplaced(r, b, g)
  {
    CellsCoverGrid();
    GoalPositionsPointInto(g, Cells);
    MisplacedLeManhattanOver(b, g, GoalPositions(g, Cells), Cells);
    ManhattanOver(b, GoalPositions(g, Cells), Cells)
  }

  /** What `posicoes_objetivo` promises the sums: every key maps to a cell of `g` holding that key. */
  ghost predicate PointsInto(g: Board, m: map<int, Pos>)
    requires IsGrid(g)
  {
    forall v | v in m :: InGrid(m[v]) && At(g, m[v]) == v
  }

  lemma GoalPositionsPointInto(g: Board, ps: seq<Pos>)
    requires IsGrid(g) && AllInGrid(ps)
    ensures PointsInto(g, GoalPositions(g, ps))
  {
  }

  /** A misplaced tile is at least one step away from the goal cell of its value. */
  lemma {:induction false} MisplacedLeManhattanOver(b: Board, g: Board, m: map<int, Pos>, ps: seq<Pos>)
    requires IsGrid(b) && IsGrid(g) && AllInGrid(ps) && Indexed(b, m, ps) && PointsInto(g, m)
    ensures MisplacedOver(b, g, ps) <= ManhattanOver(b, m, ps)
  {
    if ps != [] {
      var p := ps[0];
      MisplacedLeManhattanOver(b, g, m, ps[1..]);
      if At(b, p) != 0 && At(b, p) != At(g, p) {
        assert m[At(b, p)] != p;
      }
    }
  }

  /** The Manhattan sum over `ps` vanishes exactly when every tile among `ps` sits on its goal cell. */
  lemma {:induction false} ManhattanOverZero(b: Board, m: map<int, Pos>, ps: seq<Pos>)
    requires IsGrid(b) && AllInGrid(ps) && Indexed(b, m, ps)
    ensures ManhattanOver(b, m, ps) == 0 <==> forall p | p in ps && At(b, p) != 0 :: m[At(b, p)] == p
  {
    if ps != [] {
      ManhattanOverZero(b, m, ps[1..]);
      assert forall p | p in ps :: p == ps[0] || p in ps[1..];
    }
  }

  /** On valid boards the Manhattan distance is zero exactly when the board is the goal. */
  lemma ManhattanZeroIff(b: Board, g: Board)
    requires Valid(b) && Valid(g)
    ensures Covers(g, b)
    ensures ManhattanDistance(b, g) == 0 <==> b == g
  {
    ValidCovers(g, b);
    if b == g {
      CellsCoverGrid();
      GoalPositionsOfDistinct(g, Cells);
      ManhattanOverZero(b, GoalPositions(g, Cells), Cells);
    } else if ManhattanDistance(b, g) == 0 {
      MisplacedZeroIff(b, g);
      assert false;
    }
  }

  /** The contribution of cell `x` to a sum over `ps`: its term when `x` is among `ps`, else nothing. */
  function TermIfIn(b: Board, m: map<int, Pos>, ps: seq<Pos>, x: Pos): nat
    requires IsGrid(b) && AllInGrid(ps) && Indexed(b, m, ps) && InGrid(x)
  {
    if x in ps then Term(b, m, x) else 0
  }

  /**
    Boards that differ at most in the two cells `z` and `t` have Manhattan sums
    over distinct cells that differ by exactly the change of those two terms.
   */
  lemma {:induction false} ManhattanOverTwoCells(b: Board, c: Board, m: map<int, Pos>, ps: seq<Pos>, z: Pos, t: Pos)
    requires IsGrid(b) && IsGrid(c) && AllInGrid(ps) && Distinct(ps) && Indexed(b, m, ps) && Indexed(c, m, ps)
    requires InGrid(z) && InGrid(t) && z != t
    requires forall x | InGrid(x) && x != z && x != t :: At(c, x) == At(b, x)
    ensures ManhattanOver(c, m, ps) + TermIfIn(b, m, ps, z) + TermIfIn(b, m, ps, t)
         == ManhattanOver(b, m, ps) + TermIfIn(c, m, ps, z) + TermIfIn(c, m, ps, t)
  {
    if ps != [] {
      var p, rest := ps[0], ps[1..];
      assert Distinct(rest);
      ManhattanOverTwoCells(b, c, m, rest, z, t);
      assert p !in rest;
      assert forall x | InGrid(x) :: x in ps <==> x == p || x in rest;
    }
  }

  /** One slide changes the distance of the moved tile to a fixed cell by exactly one. */
  lemma AdjacentDist(z: Pos, d: Direction, x: Pos)
    ensures Dist(z, x) == Dist(Target(z, d), x) + 1 || Dist(Target(z, d), x) == Dist(z, x) + 1
  {
  }

  /**
    Consistency of the Manhattan heuristic: one blank slide changes the
    distance to a valid goal by exactly one, up or down.
   */
  lemma ManhattanStep(b: Board, g: Board, d: Direction)
    requires Valid(b) && Valid(g) && HasBlank(b) && Move(b, d).Some?
    ensures Covers(g, b) && Covers(g, Move(b, d).value)
    ensures var c := Move(b, d).value;
            || ManhattanDistance(c, g) == ManhattanDistance(b, g) + 1
            || ManhattanDistance(b, g) == ManhattanDistance(c, g) + 1
  {
    var c := Move(b, d).value;
    var z := Blank(b);
    var t := Target(z, d);
    MoveKeepsValid(b, d);
    ValidCovers(g, b);
    ValidCovers(g, c);
    ValidBlank(b);
    CellsCoverGrid();
    var m := GoalPositions(g, Cells);
    ManhattanOverTwoCells(b, c, m, Cells, z, t);
    assert z in Cells && t in Cells;
    var v := At(b, t);
    assert v != 0;
    assert Term(b, m, z) == 0 && Term(c, m, t) == 0;
    assert Term(b, m, t) == Dist(t, m[v]) && Term(c, m, z) == Dist(z, m[v]);
    AdjacentDist(z, d, m[v]);
  }

  /** One slide from a valid board reaches a valid board, by some direction. */
  lemma StepDirection(a: Board, c: Board) returns (d: Direction)
    requires Valid(a) && Step(a, c)
    ensures Move(a, d) == Some(c) && Valid(c)
  {
    MovesToSome(a, c);
    d :| Move(a, d) == Some(c);
    MoveKeepsValid(a, d);
  }

  /**
    Admissibility: along any path of slides from a valid board to a valid
    goal, the Manhattan distance (and so the misplaced count) of the first
    board is at most the number of slides.
   */
  lemma {:induction false} ManhattanAdmissible(w: seq<Board>, g: Board)
    requires Valid(g) && |w| > 0 && Valid(w[0]) && IsPath(w) && Last(w) == g
    ensures Covers(g, w[0])
    ensures MisplacedTiles(w[0], g) <= ManhattanDistance(w[0], g) <= |w| - 1
  {
    ValidCovers(g, w[0]);
    if |w| == 1 {
      ManhattanZeroIff(w[0], g);
    } else {
      var d := StepDirection(w[0], w[1]);
      var rest := w[1..];
      assert IsPath(rest) by {
        forall i | 0 <= i < |rest| - 1 ensures Step(rest[i], rest[i + 1]) {
          assert Step(w[i + 1], w[i + 2]);
        }
      }
      ManhattanAdmissible(rest, g);
      ManhattanStep(w[0], g, d);
    }
  }

  // ---------------------------------------------------------------------------
  // The `heuristica` argument of `a_estrela`

  /** The two heuristics `puzzle.py` defines for `a_estrela`. */
  datatype Heuristic = MisplacedCount | ManhattanSum

  /** `heuristica(estado, objetivo)` does not fail: only the Manhattan sum can, on a tile `g` lacks. */
  ghost predicate Estimable(hk: Heuristic, b: Board, g: Board) {
    IsGrid(b) && IsGrid(g) && (hk.ManhattanSum? ==> Covers(g, b))
  }

  /** `r` is at least the misplaced-tile count, so it vanishes only when every tile is in place. */
  ghost predicate AtLeastMisplaced(r: nat, b: Board, g: Board)
    requires IsGrid(b) && IsGrid(g)
  {
    MisplacedTiles(b, g) <= r && (r == 0 ==> InPlace(b, g))
  }

  /**
    `heuristica(estado, objetivo)`: either heuristic is at least the
    misplaced-tile count, so it is zero only when every tile is in place.
   */
  function Estimate(hk: Heuristic, b: Board, g: Board): (r: nat)
    requires Estimable(hk, b, g)
    ensures AtLeastMisplaced(r, b, g)
  {
    match hk
    case MisplacedCount => MisplacedTiles(b, g)
    case ManhattanSum => ManhattanDistance(b, g)
  }

  /** A goal holding every non-blank digit of `s` covers any board drawn from `s`. */
  lemma DigitsCover(g: Board, b: Board, s: set<int>)
    requires IsGrid(g) && DrawnFrom(b, s) && s - {0} <= Digits(g)
    ensures Covers(g, b)
  {
    CellsCoverGrid();
    forall p | InGrid(p) && At(b, p) != 0 ensures At(b, p) in GoalPositions(g, Cells) {
      assert At(b, p) in Digits(g);
      ValuesAreCells(g, At(b, p));
      var q :| InGrid(q) && At(g, q) == At(b, p);
      KeyOfCell(g, Cells, q);
    }
  }

  /** Both heuristics vanish exactly on the goal, between valid boards. */
  lemma EstimateZeroIff(hk: Heuristic, b: Board, g: Board)
    requires Valid(b) && Valid(g)
    ensures Estimable(hk, b, g)
    ensures Estimate(hk, b, g) == 0 <==> b == g
  {
    ValidCovers(g, b);
    MisplacedZeroIff(b, g);
    ManhattanZeroIff(b, g);
  }

  /** Both heuristics are admissible: neither exceeds the number of moves of any path to a valid goal. */
  lemma EstimateAdmissible(hk: Heuristic, w: seq<Board>, g: Board)
    requires Valid(g) && |w| > 0 && Valid(w[0]) && IsPath(w) && Last(w) == g
    ensures Estimable(hk, w[0], g)
    ensures Estimate(hk, w[0], g) <= |w| - 1
  {
    ManhattanAdmissible(w, g);
  }
}

=== FILE: puzzle.dfy ===
/**
  The 8-puzzle board of `puzzle.py` (and its copy in `puzzle_dfs_antigo.py`):
  a 3 x 3 list of rows of digits, 0 being the blank, and the moves that slide
  the blank into a neighbouring cell.
 */
module Puzzle {
  import opened Common

  /** A board is a list of rows, as in the source. */
  type Board = seq<seq<int>>

  /** A cell coordinate (row `i`, column `j` in the source). */
  datatype Pos = Pos(row: int, col: int)

  predicate InGrid(p: Pos) {
    0 <= p.row < 3 && 0 <= p.col < 3
  }

  /** Every board the source indexes is three rows of three cells. */
  predicate IsGrid(b: Board) {
    |b| == 3 && |b[0]| == 3 && |b[1]| == 3 && |b[2]| == 3
  }

  function At(b: Board, p: Pos): int
    requires IsGrid(b) && InGrid(p)
  {
    b[p.row][p.col]
  }

  /** The nine cells in the order of the source's nested `for i` / `for j` loops. */
  const Cells: seq<Pos> := [Pos(0, 0), Pos(0, 1), Pos(0, 2),
                            Pos(1, 0), Pos(1, 1), Pos(1, 2),
                            Pos(2, 0), Pos(2, 1), Pos(2, 2)]

  /** `p` comes before `q` in row-major order. */
  predicate Before(p: Pos, q: Pos) {
    p.row < q.row || (p.row == q.row && p.col < q.col)
  }

  /** The cell values, row after row. */
  function Values(b: Board): seq<int>
    requires IsGrid(b)
  {
    b[0] + b[1] + b[2]
  }

  lemma ValuesAreCells(b: Board, v: int)
    requires IsGrid(b)
    ensures v in Values(b) <==> exists q | InGrid(q) :: At(b, q) == v
  {
    if v in Values(b) {
      var k :| 0 <= k < 9 && Values(b)[k] == v;
      if k < 3 { assert At(b, Pos(0, k)) == v; }
      else if k < 6 { assert At(b, Pos(1, k - 3)) == v; }
      else { assert At(b, Pos(2, k - 6)) == v; }
    }
    if exists q | InGrid(q) :: At(b, q) == v {
      var q :| InGrid(q) && At(b, q) == v;
      assert Values(b)[3 * q.row + q.col] == v;
    }
  }

  /**
    A board of the puzzle proper: a 3 x 3 grid that holds each digit 0..8
    exactly once (the cells range over 0..8, no digit repeats, every digit occurs).
   */
  ghost predicate Valid(b: Board) {
    && IsGrid(b)
    && (forall p | InGrid(p) :: 0 <= At(b, p) < 9)
    && (forall p, q | InGrid(p) && InGrid(q) && At(b, p) == At(b, q) :: p == q)
    && (forall v | 0 <= v < 9 :: v in Values(b))
  }

  // ---------------------------------------------------------------------------
  // encontrar_zero

  /**
    The nested loops of `encontrar_zero`, resumed at cell `start`
    (`start.row == 3` means the loops are done).
   */
  function FindBlankFrom(b: Board, start: Pos): (r: Option<Pos>)
    requires IsGrid(b) && 0 <= start.row <= 3 && 0 <= start.col < 3
    ensures r.Some? ==> InGrid(r.value) && At(b, r.value) == 0 && !Before(r.value, start)
    ensures r.Some? ==> forall q {:trigger At(b, q)} | InGrid(q) && !Before(q, start) && Before(q, r.value) :: At(b, q) != 0
    ensures r.None? ==> forall q {:trigger At(b, q)} | InGrid(q) && !Before(q, start) :: At(b, q) != 0
    decreases 3 - start.row, 3 - start.col
  {
    if start.row == 3 then None
    else if At(b, start) == 0 then Some(start)
    else
      var next := if start.col == 2 then Pos(start.row + 1, 0) else Pos(start.row, start.col + 1);
      assert forall q | InGrid(q) && !Before(q, start) :: q == start || !Before(q, next);
      assert forall q | InGrid(q) && Before(q, next) :: q == start || Before(q, start);
      FindBlankFrom(b, next)
  }

  /**
    `encontrar_zero`: the first cell in row-major order holding 0, or `None`
    (the source falls off the end of its loops) when there is none.
   */
  function FindBlank(b: Board): (r: Option<Pos>)
    requires IsGrid(b)
    ensures r.None? <==> forall q {:trigger At(b, q)} | InGrid(q) :: At(b, q) != 0
    ensures r.Some? ==> InGrid(r.value) && At(b, r.value) == 0
    ensures r.Some? ==> forall q {:trigger At(b, q)} | InGrid(q) && Before(q, r.value) :: At(b, q) != 0
  {
    FindBlankFrom(b, Pos(0, 0))
  }

  /** What `mover` needs of its argument: a grid on which `encontrar_zero` succeeds. */
  predicate HasBlank(b: Board) {
    IsGrid(b) && 0 in Values(b)
  }

  lemma HasBlankFound(b: Board)
    requires IsGrid(b)
    ensures HasBlank(b) <==> FindBlank(b).Some?
  {
    ValuesAreCells(b, 0);
  }

  /** The cell `encontrar_zero` returns: the first cell, in row-major order, holding 0. */
  function Blank(b: Board): (p: Pos)
    requires HasBlank(b)
    ensures InGrid(p) && At(b, p) == 0
    ensures forall q {:trigger At(b, q)} | InGrid(q) && Before(q, p) :: At(b, q) != 0
  {
    HasBlankFound(b);
    FindBlank(b).value
  }

  /** On a valid board the blank exists and is the only cell holding 0. */
  lemma ValidBlank(b: Board)
    requires Valid(b)
    ensures HasBlank(b)
    ensures forall q | InGrid(q) && At(b, q) == 0 :: q == Blank(b)
  {
    assert 0 in Values(b);
    ValuesAreCells(b, 0);
  }

  // ---------------------------------------------------------------------------
  // movimentos, mover

  /** The keys of `movimentos`, in the dict's order. */
  datatype Direction = Up | Down | Left | Right

  const Directions: seq<Direction> := [Up, Down, Left, Right]

  /** `t` is orthogonally next to `p`: in the same column exactly when `d` is vertical, above `p` for ↑, left of it for ←. */
  ghost predicate Adjacent(p: Pos, t: Pos, d: Direction) {
    && (t.row == p.row) != (t.col == p.col)
    && -1 <= t.row - p.row <= 1 && -1 <= t.col - p.col <= 1
    && (t.col == p.col <==> d == Up || d == Down)
    && (d == Up ==> t.row < p.row) && (d == Down ==> t.row > p.row)
    && (d == Left ==> t.col < p.col) && (d == Right ==> t.col > p.col)
  }

  /**
    The cell the blank at `p` moves into: `p` plus the offset
    `movimentos[d]`, one of the four cells orthogonally adjacent to `p`.
   */
  function Target(p: Pos, d: Direction): (t: Pos)
    ensures Adjacent(p, t, d)
  {
    match d
    case Up => Pos(p.row - 1, p.col)
    case Down => Pos(p.row + 1, p.col)
    case Left => Pos(p.row, p.col - 1)
    case Right => Pos(p.row, p.col + 1)
  }

  function Opposite(d: Direction): Direction {
    match d
    case Up => Down
    case Down => Up
    case Left => Right
    case Right => Left
  }

  /** The opposite offset leads back, and different directions lead to different cells. */
  lemma TargetOpposite(p: Pos, d: Direction, d': Direction)
    ensures Target(Target(p, d), Opposite(d)) == p
    ensures Target(p, d) == Target(p, d') <==> d == d'
  {
  }

  /** `c` is `b` with the contents of cells `p` and `q` exchanged and every other cell kept. */
  ghost predicate Swapped(b: Board, c: Board, p: Pos, q: Pos)
    requires IsGrid(b) && IsGrid(c) && InGrid(p) && InGrid(q)
  {
    && At(c, p) == At(b, q)
    && At(c, q) == At(b, p)
    && forall x | InGrid(x) && x != p && x != q :: At(c, x) == At(b, x)
  }

  /** The copy-then-tuple-assign of `mover`: a fresh board with cells `p` and `q` exchanged. */
  function Swap(b: Board, p: Pos, q: Pos): (c: Board)
    requires IsGrid(b) && InGrid(p) && InGrid(q)
    ensures IsGrid(c) && Swapped(b, c, p, q)
  {
    var x, y := At(b, p), At(b, q);
    var b1 := b[p.row := b[p.row][p.col := y]];
    b1[q.row := b1[q.row][q.col := x]]
  }

  /**
    `mover`: slide the blank in direction `d`; `None` when the target cell is
    off the grid, otherwise the board with the blank and the target exchanged.
   */
  function Move(b: Board, d: Direction): (r: Option<Board>)
    requires HasBlank(b)
    ensures r.None? <==> !InGrid(Target(Blank(b), d))
    ensures r.Some? ==> && IsGrid(r.value)
                        && Swapped(b, r.value, Blank(b), Target(Blank(b), d))
                        && At(r.value, Target(Blank(b), d)) == 0
                        && HasBlank(r.value)
  {
    var z := Blank(b);
    var t := Target(z, d);
    if InGrid(t) then
      var c := Swap(b, z, t);
      assert At(c, t) == 0;
      ValuesAreCells(c, 0);
      Some(c)
    else
      None
  }

  /** Two grids that agree on every cell are the same board. */
  lemma BoardExt(b: Board, c: Board)
    requires IsGrid(b) && IsGrid(c)
    requires forall x | InGrid(x) :: At(b, x) == At(c, x)
    ensures b == c
  {
    forall i | 0 <= i < 3 ensures b[i] == c[i] {
      assert At(b, Pos(i, 0)) == At(c, Pos(i, 0));
      assert At(b, Pos(i, 1)) == At(c, Pos(i, 1));
      assert At(b, Pos(i, 2)) == At(c, Pos(i, 2));
    }
  }

  /** Exchanging two cells of a valid board gives a valid board. */
  lemma SwapKeepsValid(b: Board, c: Board, p: Pos, q: Pos)
    requires Valid(b) && IsGrid(c) && InGrid(p) && InGrid(q) && Swapped(b, c, p, q)
    ensures Valid(c)
  {
    forall x | InGrid(x) ensures 0 <= At(c, x) < 9 {
      if x == p { assert At(c, x) == At(b, q); }
      else if x == q { assert At(c, x) == At(b, p); }
      else { assert At(c, x) == At(b, x); }
    }
    forall x, y | InGrid(x) && InGrid(y) && At(c, x) == At(c, y) ensures x == y {
      var x' := if x == p then q else if x == q then p else x;
      var y' := if y == p then q else if y == q then p else y;
      assert At(b, x') == At(c, x) && At(b, y') == At(c, y);
    }
    forall v | 0 <= v < 9 ensures v in Values(c) {
      ValuesAreCells(b, v);
      var y :| InGrid(y) && At(b, y) == v;
      var y' := if y == p then q else if y == q then p else y;
      assert At(c, y') == v;
      ValuesAreCells(c, v);
    }
  }

  /** Moving the blank keeps a board valid, and the blank ends up in the target cell. */
  lemma MoveKeepsValid(b: Board, d: Direction)
    requires Valid(b) && HasBlank(b) && Move(b, d).Some?
    ensures Valid(Move(b, d).value)
    ensures Blank(Move(b, d).value) == Target(Blank(b), d)
  {
    var c := Move(b, d).value;
    SwapKeepsValid(b, c, Blank(b), Target(Blank(b), d));
    ValidBlank(c);
  }

  /** A move is undone by the opposite move: ↑ by ↓ and ← by →, and vice versa. */
  lemma MoveReversible(b: Board, d: Direction)
    requires Valid(b) && HasBlank(b) && Move(b, d).Some?
    ensures HasBlank(Move(b, d).value)
    ensures Move(Move(b, d).value, Opposite(d)) == Some(b)
  {
    var z, t := Blank(b), Target(Blank(b), d);
    var c := Move(b, d).value;
    MoveKeepsValid(b, d);
    assert Target(t, Opposite(d)) == z;
    var c' := Move(c, Opposite(d)).value;
    forall x | InGrid(x) ensures At(c', x) == At(b, x) {
      if x == z {} else if x == t {} else {}
    }
    BoardExt(c', b);
  }

  /** On a valid board, two different directions never produce the same board. */
  lemma MovesDistinct(b: Board, d1: Direction, d2: Direction)
    requires Valid(b) && HasBlank(b) && d1 != d2 && Move(b, d1).Some? && Move(b, d2).Some?
    ensures Move(b, d1) != Move(b, d2)
  {
    MoveKeepsValid(b, d1);
    MoveKeepsValid(b, d2);
  }

  // ---------------------------------------------------------------------------
  // gerar_vizinhos

  /** The result of one `mover` call as a list of zero or one boards. */
  function MoveList(b: Board, d: Direction): (r: seq<Board>)
    requires HasBlank(b)
    ensures |r| == (if Move(b, d).Some? then 1 else 0)
    ensures forall c :: c in r <==> Move(b, d) == Some(c)
  {
    match Move(b, d)
    case Some(c) => [c]
    case None => []
  }

  /** `c` is what `mover` returns for one of the four directions. */
  predicate MovesTo(b: Board, c: Board)
    requires HasBlank(b)
  {
    Move(b, Up) == Some(c) || Move(b, Down) == Some(c) || Move(b, Left) == Some(c) || Move(b, Right) == Some(c)
  }

  lemma MovesToSome(b: Board, c: Board)
    requires HasBlank(b)
    ensures MovesTo(b, c) <==> exists d :: Move(b, d) == Some(c)
  {
    if exists d :: Move(b, d) == Some(c) {
      var d :| Move(b, d) == Some(c);
      match d { case Up => case Down => case Left => case Right => }
    }
  }

  /**
    `gerar_vizinhos`: the boards `mover` produces, for ↑, ↓, ←, → in that
    order, leaving out the directions that return `None`.
   */
  function Neighbours(b: Board): (r: seq<Board>)
    requires HasBlank(b)
    ensures forall c :: c in r <==> MovesTo(b, c)
    ensures forall c | c in r :: HasBlank(c)
    ensures 2 <= |r| <= 4
  {
    var up, down, left, right := MoveList(b, Up), MoveList(b, Down), MoveList(b, Left), MoveList(b, Right);
    assert |up| + |down| >= 1 && |left| + |right| >= 1 by {
      var z := Blank(b);
      assert InGrid(Target(z, Up)) || InGrid(Target(z, Down));
      assert InGrid(Target(z, Left)) || InGrid(Target(z, Right));
    }
    up + down + left + right
  }

  /**
    How many of the first `i` directions of `Directions` give a board: the
    place in the neighbour list of the board for `Directions[i]`.
   */
  function Found(b: Board, i: nat): (n: nat)
    requires HasBlank(b) && i <= |Directions|
    ensures n <= i
  {
    if i == 0 then 0 else Found(b, i - 1) + |MoveList(b, Directions[i - 1])|
  }

  lemma FoundSums(b: Board)
    requires HasBlank(b)
    ensures Found(b, 1) == |MoveList(b, Up)|
    ensures Found(b, 2) == |MoveList(b, Up)| + |MoveList(b, Down)|
    ensures Found(b, 3) == |MoveList(b, Up)| + |MoveList(b, Down)| + |MoveList(b, Left)|
    ensures Found(b, 4) == |MoveList(b, Up)| + |MoveList(b, Down)| + |MoveList(b, Left)| + |MoveList(b, Right)|
  {
    assert Found(b, 1) == |MoveList(b, Up)|;
    assert Found(b, 2) == Found(b, 1) + |MoveList(b, Down)|;
    assert Found(b, 3) == Found(b, 2) + |MoveList(b, Left)|;
  }

  lemma MoveListSome(b: Board, d: Direction)
    requires HasBlank(b) && Move(b, d).Some?
    ensures MoveList(b, d) == [Move(b, d).value]
  {
  }

  /** Where the element of each of four lists of at most one element sits in their concatenation. */
  lemma SlotsOfFour<T>(a: seq<T>, b: seq<T>, c: seq<T>, d: seq<T>)
    requires |a| <= 1 && |b| <= 1 && |c| <= 1 && |d| <= 1
    ensures |a| == 1 ==> (a + b + c + d)[0] == a[0]
    ensures |b| == 1 ==> (a + b + c + d)[|a|] == b[0]
    ensures |c| == 1 ==> (a + b + c + d)[|a| + |b|] == c[0]
    ensures |d| == 1 ==> (a + b + c + d)[|a| + |b| + |c|] == d[0]
  {
  }

  /** The board for `Directions[i]`, when there is one, sits at place `Found(b, i)` of the neighbour list. */
  lemma NeighbourAt(b: Board, i: nat)
    requires HasBlank(b) && i < |Directions| && Move(b, Directions[i]).Some?
    ensures Found(b, i) < |Neighbours(b)| && Neighbours(b)[Found(b, i)] == Move(b, Directions[i]).value
  {
    var up, down, left, right := MoveList(b, Up), MoveList(b, Down), MoveList(b, Left), MoveList(b, Right);
    assert Neighbours(b) == up + down + left + right;
    SlotsOfFour(up, down, left, right);
    FoundSums(b);
    MoveListSome(b, Directions[i]);
  }

  /**
    The neighbours come in the order ↑, ↓, ←, →: the board for each
    direction that gives one sits after the boards of the directions before
    it, and nothing else is in the list. So the ↑ successor, when there is
    one, comes first and the → successor last.
   */
  lemma NeighboursOrder(b: Board)
    requires HasBlank(b)
    ensures |Neighbours(b)| == Found(b, |Directions|)
    ensures forall i | 0 <= i < |Directions| && Move(b, Directions[i]).Some? ::
              Found(b, i) < |Neighbours(b)| && Neighbours(b)[Found(b, i)] == Move(b, Directions[i]).value
    ensures Move(b, Up).Some? ==> Neighbours(b)[0] == Move(b, Up).value
    ensures Move(b, Right).Some? ==> Last(Neighbours(b)) == Move(b, Right).value
  {
    FoundSums(b);
    forall i | 0 <= i < |Directions| && Move(b, Directions[i]).Some?
      ensures Found(b, i) < |Neighbours(b)| && Neighbours(b)[Found(b, i)] == Move(b, Directions[i]).value
    {
      NeighbourAt(b, i);
    }
    if Move(b, Up).Some? {
      NeighbourAt(b, 0);
    }
    if Move(b, Right).Some? {
      NeighbourAt(b, 3);
    }
  }

  // ---------------------------------------------------------------------------
  // Paths

  /** One blank slide leads from `a` to `c`. */
  predicate Step(a: Board, c: Board) {
    HasBlank(a) && c in Neighbours(a)
  }

  predicate IsPath(w: seq<Board>) {
    forall i | 0 <= i < |w| - 1 :: Step(w[i], w[i + 1])
  }

  /** A non-empty path whose first board is `s`. */
  predicate IsPathFrom(w: seq<Board>, s: Board) {
    |w| > 0 && w[0] == s && IsPath(w)
  }

  lemma PathExtend(w: seq<Board>, s: Board, c: Board)
    requires IsPathFrom(w, s) && Step(Last(w), c)
    ensures IsPathFrom(w + [c], s)
  {
    var w' := w + [c];
    forall i | 0 <= i < |w'| - 1 ensures Step(w'[i], w'[i + 1]) {
      if i < |w| - 1 { assert w'[i] == w[i] && w'[i + 1] == w[i + 1]; }
    }
  }

  // ---------------------------------------------------------------------------
  // estados_iguais, serializar

  /** Two grids agree on the nine cells of `Cells` exactly when they are equal. */
  lemma CellsAgree(e1: Board, e2: Board)
    requires IsGrid(e1) && IsGrid(e2)
    ensures (forall p | p in Cells :: At(e1, p) == At(e2, p)) <==> e1 == e2
  {
    if forall p | p in Cells :: At(e1, p) == At(e2, p) {
      forall x | InGrid(x) ensures At(e1, x) == At(e2, x) {
        assert x in Cells;
      }
      BoardExt(e1, e2);
    }
  }

  /** `estados_iguais`: the two grids agree on all nine cells, that is, they are the same board. */
  predicate SameBoard(e1: Board, e2: Board): (same: bool)
    requires IsGrid(e1) && IsGrid(e2)
    ensures same <==> e1 == e2
  {
    CellsAgree(e1, e2);
    forall p | p in Cells :: At(e1, p) == At(e2, p)
  }

  /** The source's tuple of row tuples, hashable for the visited set. */
  type Key = ((int, int, int), (int, int, int), (int, int, int))

  /** The value a key records for cell `p`: row `p.row`, column `p.col` of the tuple of rows. */
  function KeyCell(k: Key, p: Pos): int
    requires InGrid(p)
  {
    var row := if p.row == 0 then k.0 else if p.row == 1 then k.1 else k.2;
    if p.col == 0 then row.0 else if p.col == 1 then row.1 else row.2
  }

  /** `k` records every cell of `b` at its place. */
  ghost predicate Records(k: Key, b: Board)
    requires IsGrid(b)
  {
    forall p | InGrid(p) :: KeyCell(k, p) == At(b, p)
  }

  /**
    `serializar` (and the `tuple(map(tuple, estado))` of the depth-first
    script): the key records every cell's value at its place.
   */
  function Serialize(b: Board): (k: Key)
    requires IsGrid(b)
    ensures Records(k, b)
  {
    ((b[0][0], b[0][1], b[0][2]), (b[1][0], b[1][1], b[1][2]), (b[2][0], b[2][1], b[2][2]))
  }

  /** Equal keys, equal boards and `estados_iguais` all mean the same thing on grids. */
  lemma SerializeFaithful(e1: Board, e2: Board)
    requires IsGrid(e1) && IsGrid(e2)
    ensures SameBoard(e1, e2) <==> Serialize(e1) == Serialize(e2)
    ensures Serialize(e1) == Serialize(e2) <==> e1 == e2
  {
    if Serialize(e1) == Serialize(e2) {
      forall x | InGrid(x) ensures At(e1, x) == At(e2, x) {
        assert Records(Serialize(e1), e1) && Records(Serialize(e2), e2);
      }
      BoardExt(e1, e2);
    }
  }

  /** Distinct grids have distinct keys. */
  lemma SerializeInjective(e1: Board, e2: Board)
    requires IsGrid(e1) && IsGrid(e2) && Serialize(e1) == Serialize(e2)
    ensures e1 == e2
  {
    SerializeFaithful(e1, e2);
  }

  // ---------------------------------------------------------------------------
  // The finite space a search moves in

  /** Every cell of `b` holds a digit of `s`. */
  ghost predicate DrawnFrom(b: Board, s: set<int>) {
    IsGrid(b) && forall p | InGrid(p) :: At(b, p) in s
  }

  ghost function Digits(b: Board): set<int>
    requires IsGrid(b)
  {
    set v | v in Values(b)
  }

  /** The rows of a key whose entries are drawn from `s`. */
  ghost function RowsOver(s: set<int>): set<(int, int, int)> {
    set x, y, z | x in s && y in s && z in s :: (x, y, z)
  }

  /** The keys of all grids drawn from `s`: a finite set. */
  ghost function KeysOver(s: set<int>): set<Key> {
    set r0, r1, r2 | r0 in RowsOver(s) && r1 in RowsOver(s) && r2 in RowsOver(s) :: (r0, r1, r2)
  }

  lemma DrawnFromOwnDigits(b: Board)
    requires IsGrid(b)
    ensures DrawnFrom(b, Digits(b))
  {
    forall p | InGrid(p) ensures At(b, p) in Digits(b) {
      ValuesAreCells(b, At(b, p));
    }
  }

  lemma KeyInUniverse(b: Board, s: set<int>)
    requires DrawnFrom(b, s)
    ensures Serialize(b) in KeysOver(s)
  {
    forall i | 0 <= i < 3 ensures (b[i][0], b[i][1], b[i][2]) in RowsOver(s) {
      assert b[i][0] == At(b, Pos(i, 0)) && b[i][1] == At(b, Pos(i, 1)) && b[i][2] == At(b, Pos(i, 2));
    }
  }

  /** Successors rearrange the cells, so they are drawn from the same digits. */
  lemma MoveDrawnFrom(b: Board, d: Direction, s: set<int>)
    requires HasBlank(b) && DrawnFrom(b, s) && Move(b, d).Some?
    ensures DrawnFrom(Move(b, d).value, s)
  {
    var c, z, t := Move(b, d).value, Blank(b), Target(Blank(b), d);
    forall p | InGrid(p) ensures At(c, p) in s {
      if p == z {} else if p == t {} else {}
    }
  }

  lemma NeighboursDrawnFrom(b: Board, s: set<int>)
    requires HasBlank(b) && DrawnFrom(b, s)
    ensures forall c | c in Neighbours(b) :: DrawnFrom(c, s)
  {
    forall d | Move(b, d).Some? ensures DrawnFrom(Move(b, d).value, s) {
      MoveDrawnFrom(b, d, s);
    }
  }

  /** Every board along a path is drawn from the digits its first board is drawn from. */
  lemma {:induction false} PathDrawnFrom(w: seq<Board>, s: set<int>)
    requires |w| > 0 && IsPath(w) && DrawnFrom(w[0], s)
    ensures DrawnFrom(Last(w), s)
  {
    if |w| > 1 {
      assert Step(w[0], w[1]);
      NeighboursDrawnFrom(w[0], s);
      var w' := w[1..];
      assert IsPath(w') by {
        forall i | 0 <= i < |w'| - 1 ensures Step(w'[i], w'[i + 1]) {
          assert Step(w[i + 1], w[i + 2]);
        }
      }
      PathDrawnFrom(w', s);
    }
  }

  /** A set of keys that holds the key of every neighbour of every board it holds. */
  ghost predicate Closed(keys: set<Key>) {
    forall b, n {:trigger Step(b, n)} | Step(b, n) && Serialize(b) in keys :: Serialize(n) in keys
  }

  /** A path that starts inside a closed set never leaves it. */
  lemma {:induction false} PathStaysInClosed(keys: set<Key>, w: seq<Board>)
    requires Closed(keys) && |w| > 0 && HasBlank(w[0]) && Serialize(w[0]) in keys && IsPath(w)
    ensures forall i | 0 <= i < |w| :: HasBlank(w[i]) && Serialize(w[i]) in keys
  {
    if |w| > 1 {
      var w' := w[..|w| - 1];
      assert IsPath(w') by {
        forall i | 0 <= i < |w'| - 1 ensures Step(w'[i], w'[i + 1]) {
          assert Step(w[i], w[i + 1]);
        }
      }
      PathStaysInClosed(keys, w');
      var a, c := w[|w| - 2], w[|w| - 1];
      assert a == w'[|w'| - 1];
      assert Step(a, c);
      assert HasBlank(c) && Serialize(c) in keys;
      forall i | 0 <= i < |w| ensures HasBlank(w[i]) && Serialize(w[i]) in keys {
        if i < |w| - 1 { assert w[i] == w'[i]; }
      }
    }
  }
}

=== FILE: searchspace.dfy ===
/**
  What the three searches over slide-puzzle boards share: the boards reached
  from the start, the frontier condition that makes "the agenda ran empty"
  mean "the goal is unreachable", and the finite space of keys that bounds
  the number of expansions.
 */
module SearchSpace {
  import opened Common
  import opened Puzzle

  /** Some path of slides from `start` ends at a board with key `k`. */
  ghost predicate Reached(k: Key, start: Board) {
    exists w :: IsPathFrom(w, start) && HasBlank(Last(w)) && Serialize(Last(w)) == k
  }

  /** Every visited key is the key of a board reached from `start`. */
  ghost predicate AllReached(visited: set<Key>, start: Board) {
    forall k | k in visited :: Reached(k, start)
  }

  /** Every neighbour of a visited board is visited or waiting on the agenda (`pending`). */
  ghost predicate Frontier(visited: set<Key>, pending: set<Key>) {
    forall b, n {:trigger Step(b, n)} | Step(b, n) && Serialize(b) in visited :: Serialize(n) in visited + pending
  }

  /** Every board of `path` is on the grid and has its key in `keys`. */
  ghost predicate AllVisited(path: seq<Board>, keys: set<Key>) {
    forall b | b in path :: IsGrid(b) && Serialize(b) in keys
  }

  /** Every board of the path `w` but its last has its key listed in `expanded`. */
  ghost predicate ExpandedAlong(w: seq<Board>, expanded: seq<Key>) {
    forall i | 0 <= i < |w| - 1 :: IsGrid(w[i]) && Serialize(w[i]) in expanded
  }

  /** A popped board's path whose boards were all visited, with `expanded` listing the visited keys, was expanded all along. */
  lemma FoundAlong(path: seq<Board>, b: Board, visited: set<Key>, expanded: seq<Key>)
    requires AllVisited(path, visited) && Enumerates(expanded, visited)
    ensures ExpandedAlong(path + [b], expanded)
  {
    var w := path + [b];
    forall i | 0 <= i < |w| - 1 ensures IsGrid(w[i]) && Serialize(w[i]) in expanded {
      assert w[i] == path[i] && path[i] in path;
    }
  }

  /** The keys of the boards reachable from `start`: a finite set. */
  ghost function ReachableKeys(start: Board): set<Key>
    requires IsGrid(start)
  {
    set k | k in KeysOver(Digits(start)) && Reached(k, start)
  }

  /** The boards reached from `start` are drawn from its digits, so their keys lie in a finite set. */
  lemma ReachedInUniverse(k: Key, start: Board)
    requires IsGrid(start) && Reached(k, start)
    ensures k in KeysOver(Digits(start))
  {
    var w :| IsPathFrom(w, start) && HasBlank(Last(w)) && Serialize(Last(w)) == k;
    DrawnFromOwnDigits(start);
    PathDrawnFrom(w, Digits(start));
    KeyInUniverse(Last(w), Digits(start));
  }

  lemma AllInUniverse(keys: set<Key>, start: Board)
    requires IsGrid(start) && AllReached(keys, start)
    ensures keys <= KeysOver(Digits(start))
    ensures keys <= ReachableKeys(start)
  {
    forall k | k in keys ensures k in KeysOver(Digits(start)) {
      ReachedInUniverse(k, start);
    }
  }

  /** The last board of a path from `start` is reached from it. */
  lemma PathReached(w: seq<Board>, start: Board)
    requires IsPathFrom(w, start) && HasBlank(Last(w))
    ensures Reached(Serialize(Last(w)), start)
  {
  }

  lemma SameKeySameStep(b: Board, c: Board, n: Board)
    requires Step(b, n) && HasBlank(c) && Serialize(b) == Serialize(c)
    ensures n in Neighbours(c)
  {
    SerializeInjective(b, c);
  }

  lemma OldFrontier(visited: set<Key>, pending: set<Key>, b: Board, n: Board)
    requires Frontier(visited, pending) && Step(b, n) && Serialize(b) in visited
    ensures Serialize(n) in visited + pending
  {
  }

  /** Marking `c` visited and adding keys to the agenda keeps every neighbour accounted for. */
  lemma FrontierGrows(visited: set<Key>, pending: set<Key>, pending': set<Key>, c: Board)
    requires Frontier(visited, pending) && HasBlank(c)
    requires visited + pending <= visited + {Serialize(c)} + pending'
    requires forall n {:trigger n in Neighbours(c)} | n in Neighbours(c) :: Serialize(n) in visited + {Serialize(c)} + pending'
    ensures Frontier(visited + {Serialize(c)}, pending')
  {
    forall b, n {:trigger Step(b, n)} | Step(b, n) && Serialize(b) in visited + {Serialize(c)}
      ensures Serialize(n) in visited + {Serialize(c)} + pending'
    {
      if Serialize(b) == Serialize(c) {
        SameKeySameStep(b, c, n);
      } else {
        OldFrontier(visited, pending, b, n);
      }
    }
  }

  /**
    Once the agenda is empty, the visited keys are closed under slides: a
    search that visited `start` has visited every board reachable from it,
    and when that excludes the goal, the goal is unreachable.
   */
  lemma Exhausted(visited: set<Key>, start: Board, goal: Board)
    requires Frontier(visited, {}) && HasBlank(start) && IsGrid(goal)
    requires Serialize(start) in visited && Serialize(goal) !in visited
    ensures forall w | IsPathFrom(w, start) :: HasBlank(Last(w)) && Serialize(Last(w)) in visited
    ensures forall w | IsPathFrom(w, start) :: Last(w) != goal
  {
    assert Closed(visited) by {
      assert visited + {} == visited;
    }
    forall w | IsPathFrom(w, start) ensures HasBlank(Last(w)) && Serialize(Last(w)) in visited {
      PathStaysInClosed(visited, w);
    }
  }

  /**
    A search that expands each key at most once, and only keys reached from
    `start`, expands no more boards than there are boards reachable from it.
   */
  lemma ExpansionBound(expanded: seq<Key>, start: Board)
    requires IsGrid(start) && Distinct(expanded)
    requires forall k | k in expanded :: Reached(k, start)
    ensures |expanded| <= |ReachableKeys(start)|
  {
    var keys := set k | k in expanded;
    DistinctCard(expanded);
    AllInUniverse(keys, start);
    SubsetCard(keys, ReachableKeys(start));
  }
}

=== FILE: vacuum.dfy ===
/**
  The two-room vacuum world of `aspirador.py`: a state is the tuple
  (position of the agent, state of room L, state of room R), with the
  positions 'L' and 'R' and the room states 'S' (dirty) and 'C' (clean);
  the `acoes` table maps each of ESQ, DIR and ASP to a total function on
  such tuples.
 */
module VacuumWorld {
  import opened Common

  datatype State = State(pos: char, left: char, right: char)

  /** The keys of `acoes`, in the order the dictionary iterates them. */
  datatype Action = Esq | Dir | Asp

  const Actions: seq<Action> := [Esq, Dir, Asp]

  /**
    The `acoes` table. ESQ and DIR test for the other room and otherwise
    leave the state alone; ASP tests only for 'L' and treats every other
    position as 'R'. On the eight states of the world: every action stays
    in the world, ESQ and DIR only move the agent (to L, to R), and ASP
    keeps the agent in place and cleans its room and only that one.
   */
  function Apply(a: Action, s: State): (t: State)
    ensures InWorld(s) ==> InWorld(t)
    ensures a != Asp ==> t.left == s.left && t.right == s.right
    ensures InWorld(s) && a == Esq ==> t.pos == 'L'
    ensures InWorld(s) && a == Dir ==> t.pos == 'R'
    ensures InWorld(s) && a == Asp ==> t.pos == s.pos
    ensures InWorld(s) && a == Asp ==>
              (if s.pos == 'L' then t.left == 'C' && t.right == s.right else t.left == s.left && t.right == 'C')
  {
    match a
    case Esq => if s.pos == 'R' then State('L', s.left, s.right) else s
    case Dir => if s.pos == 'L' then State('R', s.left, s.right) else s
    case Asp => if s.pos == 'L' then State('L', 'C', s.right) else State('R', s.left, 'C')
  }

  /** The eight states of the world: a position in {L, R} and each room in {S, C}. */
  predicate InWorld(s: State) {
    && (s.pos == 'L' || s.pos == 'R')
    && (s.left == 'S' || s.left == 'C')
    && (s.right == 'S' || s.right == 'C')
  }

  const World: set<State> := {
    State('L', 'S', 'S'), State('L', 'S', 'C'), State('L', 'C', 'S'), State('L', 'C', 'C'),
    State('R', 'S', 'S'), State('R', 'S', 'C'), State('R', 'C', 'S'), State('R', 'C', 'C')
  }

  /** The world is exactly the eight listed states. */
  lemma WorldIsEight()
    ensures |World| == 8
    ensures forall s :: InWorld(s) <==> s in World
  {
  }

  /** Doing an action twice is doing it once, in every state. */
  lemma Idempotent(a: Action, s: State)
    ensures Apply(a, Apply(a, s)) == Apply(a, s)
  {
  }

  // ---------------------------------------------------------------------------
  // Runs

  /** Some action leads from `s` to `t`. */
  predicate Next(s: State, t: State) {
    t == Apply(Esq, s) || t == Apply(Dir, s) || t == Apply(Asp, s)
  }

  lemma NextIsAction(s: State, t: State)
    ensures Next(s, t) <==> exists a :: Apply(a, s) == t
  {
    if exists a :: Apply(a, s) == t {
      var a :| Apply(a, s) == t;
      match a { case Esq => case Dir => case Asp => }
    }
  }

  /** A sequence of states, each reached from the one before by one action. */
  predicate IsRun(w: seq<State>) {
    forall i | 0 <= i < |w| - 1 :: Next(w[i], w[i + 1])
  }

  predicate IsRunFrom(w: seq<State>, s: State) {
    |w| > 0 && w[0] == s && IsRun(w)
  }

  lemma RunExtend(w: seq<State>, s: State, t: State)
    requires IsRunFrom(w, s) && Next(Last(w), t)
    ensures IsRunFrom(w + [t], s)
  {
    var w' := w + [t];
    forall i | 0 <= i < |w'| - 1 ensures Next(w'[i], w'[i + 1]) {
      if i < |w| - 1 { assert w'[i] == w[i] && w'[i + 1] == w[i + 1]; }
    }
  }

  lemma RunPrefix(w: seq<State>, s: State)
    requires IsRunFrom(w, s) && |w| > 1
    ensures IsRunFrom(w[..|w| - 1], s)
  {
    var w' := w[..|w| - 1];
    forall i | 0 <= i < |w'| - 1 ensures Next(w'[i], w'[i + 1]) {
      assert Next(w[i], w[i + 1]);
    }
  }

  // ---------------------------------------------------------------------------
  // The finite space a run moves in

  /**
    The states a run from `s` can visit: the position is `s`'s or one the
    actions set, and each room keeps its state from `s` or is cleaned.
   */
  ghost function Around(s: State): set<State> {
    set p, l, r | p in {s.pos, 'L', 'R'} && l in {s.left, 'C'} && r in {s.right, 'C'} :: State(p, l, r)
  }

  lemma ApplyAround(a: Action, t: State, s: State)
    requires t in Around(s)
    ensures Apply(a, t) in Around(s)
  {
    var u := Apply(a, t);
    assert u.pos in {s.pos, 'L', 'R'} && u.left in {s.left, 'C'} && u.right in {s.right, 'C'};
  }

  /** Every state of a run from `s` lies in `Around(s)`. */
  lemma {:induction false} RunAround(w: seq<State>, s: State)
    requires IsRunFrom(w, s)
    ensures Last(w) in Around(s)
  {
    if |w| == 1 {
      assert State(s.pos, s.left, s.right) in Around(s);
    } else {
      RunPrefix(w, s);
      RunAround(w[..|w| - 1], s);
      var t := w[|w| - 2];
      assert Next(t, Last(w));
      ApplyAround(Esq, t, s);
      ApplyAround(Dir, t, s);
      ApplyAround(Asp, t, s);
    }
  }

  /** From a state of the world, runs stay among the eight states. */
  lemma AroundWorld(s: State)
    requires InWorld(s)
    ensures Around(s) <= World
  {
    forall t | t in Around(s) ensures t in World {
      assert InWorld(t);
    }
  }
}

=== FILE: vacuumsearch.dfy ===
/**
  `bfs` of `aspirador.py`: breadth-first search over a FIFO queue of paths
  (runs of states from the start). A popped path is returned as soon as its
  last state is the goal, before the visited check; otherwise, if its last
  state is new, the state is marked visited and the path is extended by
  each action of `acoes` in turn, with no check on the new states.
 */
module VacuumSearch {
  import opened Common
  import opened VacuumWorld

  type Path = seq<State>

  /** The paths pushed for `p`: `p` extended by ESQ's, DIR's and ASP's result, in that order. */
  function Extensions(p: Path): (r: seq<Path>)
    requires |p| > 0
    ensures |r| == |Actions|
    ensures forall i | 0 <= i < |Actions| :: r[i] == p + [Apply(Actions[i], Last(p))]
  {
    [p + [Apply(Esq, Last(p))], p + [Apply(Dir, Last(p))], p + [Apply(Asp, Last(p))]]
  }

  // ---------------------------------------------------------------------------
  // The invariant

  /** Along the queue, path lengths never drop and span at most one. */
  ghost predicate Layered(queue: seq<Path>) {
    forall i, j | 0 <= i <= j < |queue| :: |queue[i]| <= |queue[j]| <= |queue[i]| + 1
  }

  /** Some queued path of at most `n` states ends at `t`. */
  ghost predicate Queued(queue: seq<Path>, t: State, n: nat) {
    exists k | 0 <= k < |queue| :: |queue[k]| <= n && |queue[k]| > 0 && Last(queue[k]) == t
  }

  /**
    `t` was expanded from a path of at most `n` states (`depth` records, for
    each visited state, the length of the path it was expanded from), or a
    path of at most `n` states to `t` waits in the queue.
   */
  ghost predicate Covered(t: State, n: nat, depth: map<State, nat>, queue: seq<Path>) {
    (t in depth && depth[t] <= n) || Queued(queue, t, n)
  }

  /** Every successor of the expanded state `s` is covered one step deeper than `s`. */
  ghost predicate SuccessorsCovered(s: State, depth: map<State, nat>, queue: seq<Path>)
    requires s in depth
  {
    forall a :: Covered(Apply(a, s), depth[s] + 1, depth, queue)
  }

  /** The loop invariant of `bfs`. */
  ghost predicate BfsInv(start: State, goal: State, queue: seq<Path>, visited: set<State>, depth: map<State, nat>) {
    && depth.Keys == visited
    && (forall p | p in queue :: IsRunFrom(p, start))
    && Layered(queue)
    && goal !in visited
    && Covered(start, 1, depth, queue)
    && (forall s | s in depth :: SuccessorsCovered(s, depth, queue))
    && (forall s | s in depth :: queue != [] ==> depth[s] <= |queue[0]|)
    && visited <= Around(start)
  }

  /** Every state of `p` but its last is in `visited`. */
  ghost predicate Walked(p: Path, visited: set<State>) {
    forall i | 0 <= i < |p| - 1 :: p[i] in visited
  }

  /** The states each queued path passed through were all expanded. */
  ghost predicate QueueWalked(queue: seq<Path>, visited: set<State>) {
    forall p | p in queue :: Walked(p, visited)
  }

  /** Popping the head keeps the rest of the queue walked, and the head too. */
  lemma WalkedAfterPop(queue: seq<Path>, visited: set<State>)
    requires queue != [] && QueueWalked(queue, visited)
    ensures Walked(queue[0], visited) && QueueWalked(queue[1..], visited)
  {
    assert queue[0] in queue;
    assert forall p | p in queue[1..] :: p in queue;
  }

  /** Expanding a walked path whose last state is now visited queues walked extensions. */
  lemma WalkedAfterExpand(p: Path, rest: seq<Path>, visited: set<State>)
    requires |p| > 0 && Walked(p, visited) && QueueWalked(rest, visited)
    ensures QueueWalked(rest + Extensions(p), visited + {Last(p)})
  {
    forall q | q in rest + Extensions(p) ensures Walked(q, visited + {Last(p)}) {
      if q in rest {
        assert Walked(q, visited);
      } else {
        var i :| 0 <= i < |Actions| && q == p + [Apply(Actions[i], Last(p))];
        assert forall j | 0 <= j < |q| - 1 :: q[j] == p[j];
      }
    }
  }

  // ---------------------------------------------------------------------------
  // Why the invariant gives shortest runs

  /**
    Every run from `start` either passes through a state with a queued path
    no longer than the run up to there, or ends in a state expanded from a
    path no longer than the run.
   */
  lemma {:induction false} Cut(start: State, goal: State, queue: seq<Path>, visited: set<State>,
                               depth: map<State, nat>, w: Path)
    requires BfsInv(start, goal, queue, visited, depth) && IsRunFrom(w, start)
    ensures (Last(w) in depth && depth[Last(w)] <= |w|) || exists i | 0 <= i < |w| :: Queued(queue, w[i], i + 1)
  {
    if |w| == 1 {
      if !(start in depth && depth[start] <= 1) {
        assert Queued(queue, w[0], 1);
      }
    } else {
      var w' := w[..|w| - 1];
      RunPrefix(w, start);
      Cut(start, goal, queue, visited, depth, w');
      if exists i | 0 <= i < |w'| :: Queued(queue, w'[i], i + 1) {
        var i :| 0 <= i < |w'| && Queued(queue, w'[i], i + 1);
        assert w[i] == w'[i];
      } else {
        var s := Last(w');
        assert s in depth && depth[s] <= |w'|;
        assert Next(s, Last(w)) by {
          assert s == w[|w| - 2];
        }
        assert SuccessorsCovered(s, depth, queue);
        var a :| Apply(a, s) == Last(w) by {
          NextIsAction(s, Last(w));
        }
        assert Covered(Last(w), depth[s] + 1, depth, queue);
        if !(Last(w) in depth && depth[Last(w)] <= |w|) {
          var k :| 0 <= k < |queue| && |queue[k]| <= depth[s] + 1 && |queue[k]| > 0 && Last(queue[k]) == Last(w);
          assert Queued(queue, w[|w| - 1], |w|);
        }
      }
    }
  }

  /** A run from `start` to the unvisited goal is at least as long as the head of the queue, which is not empty. */
  lemma NoShorterRun(start: State, goal: State, queue: seq<Path>, visited: set<State>,
                     depth: map<State, nat>, w: Path)
    requires BfsInv(start, goal, queue, visited, depth) && IsRunFrom(w, start) && Last(w) == goal
    ensures queue != [] && |queue[0]| <= |w|
  {
    Cut(start, goal, queue, visited, depth, w);
    var i :| 0 <= i < |w| && Queued(queue, w[i], i + 1);
    var k :| 0 <= k < |queue| && |queue[k]| <= i + 1 && |queue[k]| > 0 && Last(queue[k]) == w[i];
    assert |queue[0]| <= |queue[k]|;
  }

  // ---------------------------------------------------------------------------
  // One turn of the loop

  /** Coverage survives popping the head of the queue, once the head's last state is expanded no deeper than the head. */
  lemma CoveredAfterPop(x: State, n: nat, depth: map<State, nat>, queue: seq<Path>,
                        depth': map<State, nat>, queue': seq<Path>)
    requires Covered(x, n, depth, queue) && queue != [] && |queue[0]| > 0
    requires forall s | s in depth :: s in depth' && depth'[s] == depth[s]
    requires Last(queue[0]) in depth' && depth'[Last(queue[0])] <= |queue[0]|
    requires |queue'| >= |queue| - 1 && forall k | 1 <= k < |queue| :: queue'[k - 1] == queue[k]
    ensures Covered(x, n, depth', queue')
  {
    if !(x in depth && depth[x] <= n) {
      var k :| 0 <= k < |queue| && |queue[k]| <= n && |queue[k]| > 0 && Last(queue[k]) == x;
      if k > 0 {
        assert queue'[k - 1] == queue[k];
      }
    }
  }

  /** Dropping a path whose last state is already visited keeps the invariant. */
  lemma StalePop(start: State, goal: State, queue: seq<Path>, visited: set<State>, depth: map<State, nat>)
    requires BfsInv(start, goal, queue, visited, depth) && queue != []
    requires |queue[0]| > 0 && Last(queue[0]) in visited
    ensures BfsInv(start, goal, queue[1..], visited, depth)
  {
    assert queue[0] in queue;
    var queue' := queue[1..];
    forall s | s in depth ensures SuccessorsCovered(s, depth, queue') {
      assert SuccessorsCovered(s, depth, queue);
      forall a ensures Covered(Apply(a, s), depth[s] + 1, depth, queue') {
        CoveredAfterPop(Apply(a, s), depth[s] + 1, depth, queue, depth, queue');
      }
    }
    CoveredAfterPop(start, 1, depth, queue, depth, queue');
    assert forall p | p in queue' :: p in queue;
    forall s | s in depth && queue' != [] ensures depth[s] <= |queue'[0]| {
      assert |queue[0]| <= |queue[1]|;
    }
  }

  /** The queue after a fresh pop of `p`: the rest, then `p`'s extensions, all one state longer than `p`. */
  lemma FreshLayered(queue: seq<Path>)
    requires Layered(queue) && queue != [] && |queue[0]| > 0
    ensures Layered(queue[1..] + Extensions(queue[0]))
    ensures |queue[0]| <= |(queue[1..] + Extensions(queue[0]))[0]|
  {
    var q := queue[1..] + Extensions(queue[0]);
    forall i | 0 <= i < |q| ensures |queue[0]| <= |q[i]| <= |queue[0]| + 1 {
      if i < |queue| - 1 {
        assert q[i] == queue[i + 1];
      }
    }
  }

  /** The successors of the freshly expanded state are covered by its extensions. */
  lemma ExtensionsCover(p: Path, rest: seq<Path>, depth': map<State, nat>)
    requires |p| > 0 && Last(p) in depth' && depth'[Last(p)] == |p|
    ensures SuccessorsCovered(Last(p), depth', rest + Extensions(p))
  {
    var q := rest + Extensions(p);
    forall a ensures Covered(Apply(a, Last(p)), |p| + 1, depth', q) {
      var i := match a case Esq => 0 case Dir => 1 case Asp => 2;
      assert Actions[i] == a;
      assert q[|rest| + i] == p + [Apply(a, Last(p))];
    }
  }

  /** Expanding a fresh, non-goal head keeps the invariant. */
  lemma FreshPop(start: State, goal: State, queue: seq<Path>, visited: set<State>, depth: map<State, nat>)
    requires BfsInv(start, goal, queue, visited, depth) && queue != []
    requires |queue[0]| > 0 && Last(queue[0]) !in visited && Last(queue[0]) != goal
    ensures BfsInv(start, goal, queue[1..] + Extensions(queue[0]), visited + {Last(queue[0])},
                   depth[Last(queue[0]) := |queue[0]|])
  {
    var p := queue[0];
    assert p in queue;
    var t := Last(p);
    var depth' := depth[t := |p|];
    var queue' := queue[1..] + Extensions(p);
    forall s | s in depth ensures SuccessorsCovered(s, depth', queue') {
      assert SuccessorsCovered(s, depth, queue);
      forall a ensures Covered(Apply(a, s), depth'[s] + 1, depth', queue') {
        CoveredAfterPop(Apply(a, s), depth[s] + 1, depth, queue, depth', queue');
      }
    }
    ExtensionsCover(p, queue[1..], depth');
    CoveredAfterPop(start, 1, depth, queue, depth', queue');
    forall q | q in queue' ensures IsRunFrom(q, start) {
      if q in queue[1..] {
        assert q in queue;
      } else {
        var i :| 0 <= i < |Actions| && q == p + [Apply(Actions[i], t)];
        RunExtend(p, start, Apply(Actions[i], t));
      }
    }
    FreshLayered(queue);
    RunAround(p, start);
  }

  // ---------------------------------------------------------------------------
  // The search

  /**
    One turn of the `while fila` loop: pop the head path; return it when it
    ends at the goal; otherwise, if its last state is new, mark the state
    visited and append the path's three extensions.
   */
  method Dequeue(start: State, goal: State, queue: seq<Path>, visited: set<State>,
                 ghost depth: map<State, nat>, ghost expanded: seq<State>)
    returns (queue': seq<Path>, visited': set<State>, ghost depth': map<State, nat>, ghost expanded': seq<State>,
             found: Option<Path>)
    requires BfsInv(start, goal, queue, visited, depth) && Enumerates(expanded, visited) && queue != []
    requires QueueWalked(queue, visited)
    ensures found.Some? ==> IsRunFrom(found.value, start) && Last(found.value) == goal
    ensures found.Some? ==> forall i | 0 <= i < |found.value| - 1 :: found.value[i] in expanded'
    ensures found.None? ==> QueueWalked(queue', visited')
    ensures found.Some? ==> forall w | IsRunFrom(w, start) && Last(w) == goal :: |found.value| <= |w|
    ensures found.Some? ==> visited' == visited && expanded' == expanded
    ensures found.None? ==> BfsInv(start, goal, queue', visited', depth') && Enumerates(expanded', visited')
    ensures found.None? ==> Progress(Around(start), visited, |queue|, visited', |queue'|)
  {
    var p := queue[0];
    assert p in queue;
    var t := Last(p);
    WalkedAfterPop(queue, visited);
    if t == goal {
      forall w | IsRunFrom(w, start) && Last(w) == goal ensures |p| <= |w| {
        NoShorterRun(start, goal, queue, visited, depth, w);
      }
      queue', visited', depth', expanded', found := queue, visited, depth, expanded, Some(p);
    } else if t in visited {
      StalePop(start, goal, queue, visited, depth);
      queue', visited', depth', expanded', found := queue[1..], visited, depth, expanded, None;
    } else {
      FreshPop(start, goal, queue, visited, depth);
      RunAround(p, start);
      RemainingShrinks(Around(start), visited, t);
      WalkedAfterExpand(p, queue[1..], visited);
      EnumeratesFresh(expanded, visited, t);
      queue', visited', depth', expanded', found :=
        queue[1..] + Extensions(p), visited + {t}, depth[t := |p|], expanded + [t], None;
    }
  }

  /**
    `bfs(inicio, objetivo)`: a shortest run from `start` to `goal`, or
    `None` once the queue runs empty. The ghost `expanded` lists, in order,
    the states whose successors were enqueued.
   */
  method Bfs(start: State, goal: State) returns (r: Option<Path>, ghost expanded: seq<State>)
    ensures r.Some? ==> IsRunFrom(r.value, start) && Last(r.value) == goal
    ensures r.Some? ==> forall w | IsRunFrom(w, start) && Last(w) == goal :: |r.value| <= |w|
    ensures r.None? ==> forall w | IsRunFrom(w, start) :: Last(w) != goal
    ensures r.None? ==> forall w | IsRunFrom(w, start) :: Last(w) in expanded
    ensures r.Some? ==> forall i | 0 <= i < |r.value| - 1 :: r.value[i] in expanded
    ensures Distinct(expanded) && goal !in expanded
    ensures forall s | s in expanded :: s in Around(start)
    ensures InWorld(start) ==> |expanded| <= 8
  {
    var queue: seq<Path> := [[start]];
    var visited: set<State> := {};
    ghost var depth: map<State, nat> := map[];
    expanded := [];
    assert Queued(queue, start, 1) by {
      assert |queue[0]| <= 1 && Last(queue[0]) == start;
    }
    while queue != []
      invariant BfsInv(start, goal, queue, visited, depth) && Enumerates(expanded, visited)
      invariant QueueWalked(queue, visited)
      decreases |Around(start) - visited|, |queue|
    {
      var found;
      queue, visited, depth, expanded, found := Dequeue(start, goal, queue, visited, depth, expanded);
      if found.Some? {
        r := found;
        ExpansionCount(start, visited, expanded);
        return;
      }
    }
    r := None;
    QueueRanEmpty(start, goal, visited, depth, expanded);
    ExpansionCount(start, visited, expanded);
  }

  /**
    Once the queue is empty, every state a run from `start` reaches was
    expanded, and since the goal never was, no run reaches the goal.
   */
  lemma QueueRanEmpty(start: State, goal: State, visited: set<State>, depth: map<State, nat>, expanded: seq<State>)
    requires BfsInv(start, goal, [], visited, depth) && Enumerates(expanded, visited)
    ensures forall w | IsRunFrom(w, start) :: Last(w) in expanded && Last(w) != goal
  {
    forall w | IsRunFrom(w, start) ensures Last(w) in expanded {
      Cut(start, goal, [], visited, depth, w);
    }
  }

  /** At most one expansion per state of the world. */
  lemma ExpansionCount(start: State, visited: set<State>, expanded: seq<State>)
    requires Enumerates(expanded, visited) && visited <= Around(start)
    ensures InWorld(start) ==> |expanded| <= 8
  {
    if InWorld(start) {
      EnumeratesCard(expanded, visited);
      AroundWorld(start);
      WorldIsEight();
      SubsetCard(visited, World);
    }
  }

  // ---------------------------------------------------------------------------
  // The script's run: both rooms dirty, the agent in L, and the goal both rooms clean with the agent in L

  const Dirty: State := State('L', 'S', 'S')
  const Clean: State := State('L', 'C', 'C')

  /**
    The number of actions still needed to reach `Clean` from a state of the
    world: clean L if dirty; if R is dirty, go there (when in L), clean it
    and come back; if only the position is wrong, come back.
   */
  function ToGo(s: State): nat {
    if s.right == 'S' then
      (if s.left == 'S' then 1 else 0) + 2 + (if s.pos == 'L' then 1 else 0)
    else
      (if s.left == 'S' then 1 else 0) + (if s.pos == 'R' then 1 else 0)
  }

  /** One action lowers `ToGo` by at most one, and only `Clean` has nothing to go. */
  lemma ToGoStep(a: Action, s: State)
    requires InWorld(s)
    ensures ToGo(Apply(a, s)) + 1 >= ToGo(s)
    ensures ToGo(s) == 0 <==> s == Clean
  {
  }

  /** Along a run inside the world, `ToGo` drops by at most the number of actions. */
  lemma {:induction false} ToGoAlongRun(w: Path, s: State)
    requires IsRunFrom(w, s) && InWorld(s)
    ensures InWorld(Last(w)) && ToGo(Last(w)) + (|w| - 1) >= ToGo(s)
  {
    if |w| > 1 {
      RunPrefix(w, s);
      ToGoAlongRun(w[..|w| - 1], s);
      var t := w[|w| - 2];
      assert t == Last(w[..|w| - 1]);
      assert Next(t, Last(w));
      ToGoStep(Esq, t);
      ToGoStep(Dir, t);
      ToGoStep(Asp, t);
    }
  }

  /** Cleaning both rooms and returning to L takes at least four actions, and four suffice. */
  lemma FourActionsNeeded()
    ensures forall w | IsRunFrom(w, Dirty) && Last(w) == Clean :: |w| >= 5
    ensures IsRunFrom([Dirty, State('R', 'S', 'S'), State('R', 'S', 'C'), State('L', 'S', 'C'), Clean], Dirty)
  {
    forall w | IsRunFrom(w, Dirty) && Last(w) == Clean ensures |w| >= 5 {
      ToGoAlongRun(w, Dirty);
    }
    var w := [Dirty, State('R', 'S', 'S'), State('R', 'S', 'C'), State('L', 'S', 'C'), Clean];
    assert Next(w[0], w[1]) && Next(w[1], w[2]) && Next(w[2], w[3]) && Next(w[3], w[4]);
  }

  /**
    The script's `bfs(estado_inicial, objetivo)` call: it finds a plan, and
    the plan has four actions (five states).
   */
  method CleanBothRooms() returns (plan: Path)
    ensures IsRunFrom(plan, Dirty) && Last(plan) == Clean && |plan| == 5
  {
    ghost var expanded;
    var r;
    r, expanded := Bfs(Dirty, Clean);
    FourActionsNeeded();
    match r
    case None =>
      assert false;
    case Some(p) =>
      plan := p;
  }
}
